=== FILE: README.md ===
# Speech synthesis orchestration, modelled in Dafny

The repository wraps one unreliable synthesis call in the same orchestration
in every text-to-speech backend. The call goes to a cloud service or to a
local HTTP server. Around it, each backend:

- makes at most three attempts and stops at the first that gets through;
- stores the audio as a `.wav` file in an audio directory;
- plays the file on the host audio device in chunks of 1024 frames;
- deletes the file or hands its path back, depending on the configuration.

Two revisions of this code live side by side, and the model keeps them apart:

- **Current revision** (`src/cltl/speech_synthesis`), in these modules:
  - `CltlApi`: the component and its constructor.
  - `CltlImplementation`: naming, storing, playing and deleting the file.
  - `CltlRetry`: the loop and the store → play → delete/return sequence that both backends share.
  - `CltlWavenet` and `CltlMozilla`: the cloud and local-HTTP backends.
  - `CltlComponent`: method dispatch over the four classes.
- **Older revision** (`leolani/speech_synthesis`), in these modules:
  - `LeolaniAbstract`: the base class `AbstractTextToSpeech`.
  - `LeolaniWavenet`: the cloud backend that plays and deletes after the loop.
  - `LeolaniMozilla`: the temporary-file backend. Storing, playing and deleting all happen inside each attempt.

Shared modules:

- `Runtime`: Python values and exceptions.
- `Files`: the filesystem.
- `Playback`: chunked playback.
- `Clock`: the `strftime` time stamp.
- `Service`: the synthesis service.
- `Calls`: the attempt cap and what one call observably does.

Every effect is an input or an output of a pure function:

- **The synthesis service** is a script: one `Outcome` per attempt, either it raised or it answered with bytes. An attempt past the end of the script fails. The requests a call sends are part of its result.
- **The filesystem** is a set of directories plus a map from paths to contents. Paths are sequences of components. `audios_dir / name` is joined as `pathlib` joins:
  - the name is split at every '/';
  - empty and "." components are dropped;
  - an absolute name replaces the directory.
- **Directory creation, writes and removals** can also fail for reasons the filesystem does not show, such as a full disk or a refusal:
  - `mkdirOk` says whether the operating system lets a missing directory be created.
  - A `WriteOutcome` says how a write goes once the path is fine. It completes, or it is refused at `open` and changes nothing, or it breaks after some bytes have reached the file.
  - `removeOk` says whether a removal is allowed.
- **A wave file** is its frame sequence. Parsing a file's contents is a parameter `WavReader`, which returns `None` when `wave.open` would reject the file.
- **The audio device** is `Device(opens, failsAt)`: whether `PyAudio.open` succeeds, and which `write` first raises. What was played is the sequence of chunks written to it.
- **The clock** is a `Time` value given to the call as part of its environment. As shipped, the default prefix makes `create_filename` read `datetime.now()` on every attempt whose request is answered, and then raise, so that reading is never used. Only the reading of the one naming that succeeds ever reaches a file name. So one reading per call is all a call's result can depend on.
- **The temporary-file backend** takes one `Trial` per attempt: the service's answer, the name the operating system picks for the temporary file (`None` when it cannot make one), and the write, device and removal behaviour for that attempt.
- **The variant:** every entry point that runs into a defect listed under Findings takes a `Variant`. `AsShipped` runs the code as written. `Fixed` runs it with that defect corrected. The properties of the shipped code are stated for `AsShipped`.
- **The input and output records** of the current revision (`SpeechSynthesisInput`, `SpeechSynthesisOutput`) are declared but never built or read by the code, so they have no counterpart here. `text_to_speech` in fact returns `None` or a `str`, not the declared output record, and the model returns what the code returns.

### Where the code and the design description disagree

Where they disagree, the model follows the code:

- **Write failure:** a failing write does not lose the path. `_create_audio` logs the failure and returns the path all the same, so the attempt counts as a success and is not retried.
- **Missing audio directory:** nothing creates the directory before a write. Only the constructor with an explicit directory, and `set_audio_path`, create it. A write into a missing directory fails like any other write.
- **Total failure:** after every attempt fails, the current revision returns the string `"None"` (from `str(None)`) when it saves audio, not an absent value.
- **Exceptions that reach the caller:** deleting the file after the loop is not guarded.
  - The current revision lets an `OSError` from `Path.unlink` escape.
  - The older cloud backend raises `AttributeError` whenever a stored file is to be deleted.
- **Playback failure:** in the older temporary-file backend, a playback failure is not harmless. It makes the attempt fail, so the text is synthesized again.
- **Leftover files:** the older temporary-file backend leaves a file behind for each attempt that failed after creating it.
- **`talking`:** it is never true, because no code changes the job counter.

## Model

| member | source | states |
|---|---|---|
| Files.MakeDirs | src/cltl/speech_synthesis/api.py:50 | creating a directory with its parents succeeds exactly when no regular file sits at the path or at one of its ancestors, and the directory exists already or the system lets it be made; then the path and all its ancestors are directories and no file changes; a failure changes nothing |
| Files.WriteFile | src/cltl/speech_synthesis/implementation.py:39-40 | writing succeeds exactly when the path is not a directory, its directory exists and the write completes, and then leaves exactly the given bytes at the path; a bad path or a refused open changes nothing; a write that breaks leaves at the path the bytes that reached it, a prefix of the data; no directory and no other path changes |
| Files.Join | src/cltl/speech_synthesis/implementation.py:34 | `dir / name`: an absolute name replaces the directory, otherwise the directory is kept and the name's components follow it |
| Files.PartsFrom | src/cltl/speech_synthesis/implementation.py:34 | the components a name adds to a path are never empty, never "." and contain no '/' |
| Files.PartsOfPlain | src/cltl/speech_synthesis/implementation.py:34 | a name without '/' adds itself as one component, unless it is empty or "." |
| Files.PartsEndWith | src/cltl/speech_synthesis/implementation.py:32-34 | a name ending in a '/'-free piece adds a last component that ends with that piece, whatever comes before |
| Files.CreateNew | leolani/speech_synthesis/system/mozilla_tts.py:70 | exclusive creation of an empty file succeeds exactly when the path is unused and its directory exists, and then adds only that empty file |
| Files.Remove | src/cltl/speech_synthesis/implementation.py:81 | removal succeeds exactly for a regular file the system lets go of; it then takes away that one path and nothing else; a failure changes nothing |
| Clock.Stamp | leolani/speech_synthesis/abstract/text_to_speech.py:80-81 | the `%Y-%m-%d-%H-%M` stamp of a valid time is always sixteen characters |
| Clock.StampIdentifiesMinute | leolani/speech_synthesis/abstract/text_to_speech.py:80-81 | two valid times have the same stamp if and only if they agree on year, month, day, hour and minute |
| Playback.ReadFrames | src/cltl/speech_synthesis/implementation.py:64 | one `readframes(n)` returns at most `n` frames, and nothing exactly at the end of the file |
| Playback.Chunks | src/cltl/speech_synthesis/implementation.py:64-70 | the read loop produces no chunk for an empty file, at least one otherwise, and never more chunks than frames |
| Playback.ChunkCount | src/cltl/speech_synthesis/implementation.py:64-70 | a file of `n` frames gives `n / 1024` chunks, rounded up |
| Playback.ChunksCoverFile | src/cltl/speech_synthesis/implementation.py:64-70 | the chunks the read loop produces, joined in order, are exactly the file's frames |
| Playback.ChunksBounded | src/cltl/speech_synthesis/api.py:38 | every chunk holds between 1 and 1024 frames, and every chunk but the last holds exactly 1024 |
| Playback.Stream | src/cltl/speech_synthesis/implementation.py:59-70 | playback raises exactly when the device does not open or a write fails before the end; what is played is a prefix of the chunks, all of them without an exception, and exactly the chunks before the failing write when one fails |
| Playback.StreamPlaysWholeFile | src/cltl/speech_synthesis/implementation.py:64-70 | on a device that opens and never fails, playback does not raise and plays exactly the file's frames |
| Playback.StreamIsPrefixOfChunks | src/cltl/speech_synthesis/implementation.py:64-70 | whatever the device does, what reaches it is a prefix of the file's chunks, and playback ends without an exception exactly when the device opened and all chunks were written |
| Playback.PlayFrames | src/cltl/speech_synthesis/implementation.py:64-70 | the imperative read–write loop plays exactly the chunks the reference description `Stream` gives, and raises exactly when it does: nothing if the device does not open, the chunks before the failing write, or all chunks |
| Playback.OpenAndStream | src/cltl/speech_synthesis/implementation.py:54-70 | a path that is not a regular file, or whose contents are not a wave file, raises before anything is played; otherwise the file's frames are streamed |
| CltlApi.New | src/cltl/speech_synthesis/api.py:40-55 | language and both flags are kept verbatim; a falsy directory selects `audios` under the package home and leaves the filesystem alone; a given directory is used as is and created with its parents, and construction fails (changing nothing) exactly when a regular file is in the way or the system refuses to make the missing directory |
| CltlApi.NewWithDefaults | src/cltl/speech_synthesis/api.py:40-41 | with the defaults the component plays and saves, always constructs, and uses the package's `audios` directory |
| CltlApi.BaseTextToSpeech | src/cltl/speech_synthesis/api.py:57-73 | the interface method always raises `NotImplementedError` |
| CltlImplementation.AudioNameIsWav | src/cltl/speech_synthesis/implementation.py:32 | every file name ends in `.wav` |
| CltlImplementation.CreateFilename | src/cltl/speech_synthesis/implementation.py:28-34 | naming raises `AttributeError` if and only if the prefix is empty; otherwise the last component ends in `_<ClassName>.wav`; a relative prefix keeps the file under the audio directory, an absolute one puts it at that absolute path, and a prefix without '/' names `<prefix>_<ClassName>.wav` directly in the audio directory |
| CltlImplementation.FilenameIdentifiesPrefix | src/cltl/speech_synthesis/implementation.py:28-34 | for non-empty prefixes without '/', two calls give the same path if and only if the prefixes are equal, so a second store with the same prefix overwrites the first file |
| CltlImplementation.DotPrefixSharesFile | src/cltl/speech_synthesis/implementation.py:34 | a prefix with '/' does not tell the prefix back: `./p` and `p` name the same file, because the join drops "." components |
| CltlImplementation.JoinedNameIsNamedAfter | src/cltl/speech_synthesis/implementation.py:32-34 | for every prefix, `audios_dir / name` ends in a component ending in `_<ClassName>.wav` and `.wav`, stays under the audio directory for a relative prefix, is absolute for an absolute one, and is one component below the audio directory for a prefix without '/' |
| CltlImplementation.DefaultPrefixRaises | src/cltl/speech_synthesis/implementation.py:29-30 | with the default empty prefix every naming raises |
| CltlImplementation.CreateFilenameIntended | src/cltl/speech_synthesis/implementation.py:28-34 | the intended naming never fails: an empty prefix is replaced by the stamp of the current minute, directly in the audio directory, and a non-empty prefix names the same file as the code as written |
| CltlImplementation.IntendedDefaultNameIsPerMinute | src/cltl/speech_synthesis/implementation.py:29-32 | with the intended naming, two default-prefix calls name the same file if and only if they fall in the same minute |
| CltlImplementation.NameFile | src/cltl/speech_synthesis/implementation.py:28-34 | naming raises if and only if the code is as shipped and the prefix is empty; a non-empty prefix names the same file in both variants; the corrected empty prefix names the current minute's file directly in the audio directory |
| CltlImplementation.NameFileIsNamedAfter | src/cltl/speech_synthesis/implementation.py:28-34 | in both variants, a returned name ends in a `.wav` component and lies where the effective prefix (the given one, or the current minute's stamp) puts it |
| CltlImplementation.CreateAudio | src/cltl/speech_synthesis/implementation.py:36-47 | storing raises exactly when naming does; otherwise it returns the named path even when the write fails; a write that is not refused leaves at that path the bytes that reached it (all of the audio when it completes); a refused write or a bad path changes nothing; no other path or directory changes |
| CltlImplementation.PlayFile | src/cltl/speech_synthesis/implementation.py:49-76 | an absent file, a missing file or an unparsable file plays nothing; otherwise a prefix of the file's chunks is played, the whole file on a working device, and nothing is ever raised |
| CltlImplementation.DeleteFile | src/cltl/speech_synthesis/implementation.py:78-81 | an absent or nonexistent path changes nothing; an existing regular file the system lets go of is removed and nothing else changes; a failure raises and changes nothing |
| CltlImplementation.DeleteFileIdempotent | src/cltl/speech_synthesis/implementation.py:78-81 | once a deletion returns, deleting the same path again changes nothing: twice is the same as once |
| CltlImplementation.SetAudioPath | src/cltl/speech_synthesis/implementation.py:24-26 | the component points at the new directory even if creating it raises; creation succeeds exactly when no regular file is in the way and the directory exists or the system lets it be made; a failure changes nothing |
| CltlRetry.FirstSuccess | src/cltl/speech_synthesis/wavenet_api.py:51-60 | the first attempt that gets through both the request and the naming, if any: none if and only if every remaining attempt fails, otherwise every attempt before it failed |
| CltlRetry.StoreLoop | src/cltl/speech_synthesis/wavenet_api.py:49-60 | the loop ends without a file if and only if every attempt either got no answer or failed at naming; otherwise it stops at the first attempt that got through, and that attempt's store is what was done |
| CltlRetry.StrOf | src/cltl/speech_synthesis/wavenet_api.py:69 | `str(file)` is `"None"` for no file, and for a stored file it ends with the file's name |
| CltlRetry.AfterLoop | src/cltl/speech_synthesis/wavenet_api.py:62-69 | after the loop: when saving, the result is `str(file)` and the filesystem is untouched; with playing on, the file is played whether or not it is kept, a prefix of its chunks and the whole file on a working device; when not saving, an existing file the system lets go of is removed and the result is `None`, a returning call leaves the path gone and nothing else changed, and a raised `OSError` changes nothing; nothing is played without a file or with playing off; directories never change |
| CltlRetry.Orchestrate | src/cltl/speech_synthesis/wavenet_api.py:49-69 | between one and three identical requests, all but the last failing, the last succeeding unless three were sent; exceptions inside the loop never escape; directories never change; with saving off, a call that returns leaves no new file behind and no file's contents changed, whichever attempt stored; when every attempt fails, three requests are sent, nothing changes or plays, and the result is `"None"` or `None` |
| CltlRetry.NoneStringIffAllAttemptsFail | src/cltl/speech_synthesis/wavenet_api.py:68-69 | when saving, the result is the string `"None"` if and only if every attempt failed, because a stored path never renders as `"None"` |
| CltlRetry.EmptyPrefixNeverStores | src/cltl/speech_synthesis/wavenet_api.py:51-60 | as shipped, with the default empty prefix, three requests are sent even if the service answers, nothing is written or played, and the result is `"None"` or `None` |
| CltlRetry.FixedDefaultPrefixStores | src/cltl/speech_synthesis/implementation.py:29-30 | with the timestamp branch corrected, the default empty prefix stores the first answer after one request, and when saving, the result is the current minute's path |
| CltlRetry.WriteFailureIsNotRetried | src/cltl/speech_synthesis/wavenet_api.py:56-57 | if the first request is answered and its file can be named, one request is sent however the write goes, and when saving the result is the same whatever the write did |
| CltlRetry.SavedFileHoldsAudio | src/cltl/speech_synthesis/wavenet_api.py:49-69 | when saving and the first answer's file is written, the result is that file's path, the file holds exactly that answer's audio, nothing else changed, one request per attempt up to that answer was sent, and with playing on that audio is played, all of it on a working device |
| CltlRetry.StorePlayDeleteRoundTrip | src/cltl/speech_synthesis/wavenet_api.py:49-67 | store, play and delete with saving off, for the first answering attempt whatever its number and any write that is not refused: the result is `None`, the filesystem is as before minus the file's path, one request per attempt up to that answer was sent, and what was played is the audio as written, all of it on a working device |
| CltlWavenet.New | src/cltl/speech_synthesis/wavenet_api.py:23-36 | the voice is built once from the language, `en-US-Wavenet-H` and gender 2, with LINEAR16 encoding; the shared configuration is kept verbatim |
| CltlWavenet.TextToSpeech | src/cltl/speech_synthesis/wavenet_api.py:40-69 | one to three cloud requests, each the text with the instance's voice and LINEAR16; the result is a string when saving and `None` or an `OSError` otherwise; nothing plays with playing off; with saving off, a call that returns leaves no new file and no changed contents |
| CltlMozilla.New | src/cltl/speech_synthesis/mozilla_tts.py:19-23 | the shared configuration only, kept verbatim |
| CltlMozilla.TextToSpeech | src/cltl/speech_synthesis/mozilla_tts.py:25-52 | one to three requests, each a GET to `http://localhost:5002/api/tts` whose only parameter is the text; the result is a string when saving and `None` or an `OSError` otherwise; nothing plays with playing off; with saving off, a call that returns leaves no new file and no changed contents |
| CltlComponent.TextToSpeech | src/cltl/speech_synthesis/api.py:57-73 | exactly the two interface classes raise `NotImplementedError`, and then nothing changes, plays or is sent; a backend that returns normally returns `None` if and only if it does not save |
| LeolaniAbstract.New | leolani/speech_synthesis/abstract/text_to_speech.py:26-35 | language and both flags are kept verbatim, the audio directory is the package root, and the instance is not talking |
| LeolaniAbstract.Language | leolani/speech_synthesis/abstract/text_to_speech.py:37-48 | the `language` property reads back the language the instance keeps |
| LeolaniAbstract.Talking | leolani/speech_synthesis/abstract/text_to_speech.py:50-61 | the `talking` property is true exactly when some job is counted as in progress |
| LeolaniAbstract.NewInstanceProperties | leolani/speech_synthesis/abstract/text_to_speech.py:37-61 | the `language` property returns the constructor's argument, and `talking` is false |
| LeolaniAbstract.CreateFilename | leolani/speech_synthesis/abstract/text_to_speech.py:78-81 | the path is `audios/<ClassName>_<stamp>.wav` below the audio directory, class before time |
| LeolaniAbstract.FilenameIsPerMinute | leolani/speech_synthesis/abstract/text_to_speech.py:78-81 | two calls name the same file if and only if they fall in the same minute |
| LeolaniAbstract.CreateAudio | leolani/speech_synthesis/abstract/text_to_speech.py:83-94 | storing never raises and always returns the named path; a write that is not refused leaves the bytes that reached the file (all of the audio when it completes); a refused write or a bad path changes nothing; no other path or directory changes |
| LeolaniAbstract.PlayFile | leolani/speech_synthesis/abstract/text_to_speech.py:96-121 | with no guard, an absent, missing or unparsable file fails inside the `try` and plays nothing; otherwise a prefix of the chunks is played, the whole file on a working device, and nothing is raised |
| LeolaniAbstract.DeleteFile | leolani/speech_synthesis/abstract/text_to_speech.py:124-127 | `None` changes nothing; a non-empty path string raises `AttributeError` and changes nothing; a temporary-file object whose file exists has it removed when the system allows it, and a missing one changes nothing; directories never change |
| LeolaniAbstract.DeleteOfCreatedPathRaises | leolani/speech_synthesis/abstract/text_to_speech.py:124-127 | passing any path `create_filename` returns raises `AttributeError` |
| LeolaniAbstract.DeleteFileIntended | leolani/speech_synthesis/abstract/text_to_speech.py:124-127 | the intended deletion on the path string: an absent or nonexistent path changes nothing, a removable regular file is removed, and only an `OSError` can be raised |
| LeolaniAbstract.IntendedDeleteRemovesStoredFile | leolani/speech_synthesis/abstract/text_to_speech.py:124-127 | the intended deletion removes a freshly stored file, whole or broken off, leaving the filesystem as before minus that path, and a second deletion changes nothing more |
| LeolaniAbstract.OnTextToSpeech | leolani/speech_synthesis/abstract/text_to_speech.py:63-76 | the base method always raises `NotImplementedError` |
| LeolaniWavenet.New | leolani/speech_synthesis/system/wavenet_api.py:19-28 | only the language is passed on: the instance plays and saves, and its voice is built once from the language, `en-US-Wavenet-J`, gender 2 and LINEAR16 |
| LeolaniWavenet.FirstAnswer | leolani/speech_synthesis/system/wavenet_api.py:44-53 | the loop finds no answer if and only if every remaining call fails; otherwise it stops at the first call that answers |
| LeolaniWavenet.StoreLoop | leolani/speech_synthesis/system/wavenet_api.py:42-53 | `file` stays `None` if and only if all three calls failed; otherwise it is the file stored from the first answer |
| LeolaniWavenet.DeleteLeft | leolani/speech_synthesis/system/wavenet_api.py:58-59 | deleting what the loop left: nothing after a loop that stored nothing; as shipped, `AttributeError` for a stored path, with nothing changed; corrected, the stored file is removed when it can be, and a failure changes nothing |
| LeolaniWavenet.OnTextToSpeech | leolani/speech_synthesis/system/wavenet_api.py:32-59 | one to three identical requests, all but the last failing; as shipped it returns `None`, except that it raises `AttributeError` if and only if saving is off and some call answered, and then a file it could write stays on disk; with the deletion corrected, only an `OSError` from the removal can escape; only the stamped file is ever touched; nothing plays with playing off |
| LeolaniWavenet.AfterLoop | leolani/speech_synthesis/system/wavenet_api.py:55-59 | after the loop: nothing plays with playing off; only the stored file can change; a raise changes nothing; as shipped, `AttributeError` escapes exactly when saving is off and a file was stored, and corrected only an `OSError` can |
| LeolaniWavenet.NewInstanceKeepsAudio | leolani/speech_synthesis/system/wavenet_api.py:19-59 | a new instance never raises; it keeps exactly the first answer's audio in the stamped file, after one request per attempt up to that answer, and a working device plays exactly that audio's frames |
| LeolaniWavenet.FixedDeleteRemovesStoredFile | leolani/speech_synthesis/abstract/text_to_speech.py:124-127 | with the deletion corrected, an instance that does not save returns `None` and leaves the filesystem as before minus the file it stored, whether the write completed or broke off |
| LeolaniWavenet.AllAttemptsFail | leolani/speech_synthesis/system/wavenet_api.py:42-59 | when every call fails, three requests are sent, nothing is written or played, and it returns `None` whatever the flags |
| LeolaniWavenet.StoredAudioIsPlayed | leolani/speech_synthesis/system/wavenet_api.py:42-56 | with playing on, the first answer's file is played after the loop whether or not it is kept: a prefix of the chunks of the audio as written, all of it on a working device, nothing when it does not parse |
| LeolaniWavenet.ShippedDeleteKeepsStoredFile | leolani/speech_synthesis/system/wavenet_api.py:58-59 | as shipped, an instance that does not save raises `AttributeError` and the file it stored stays, holding the first answer's audio as written, with nothing else changed |
| LeolaniMozilla.New | leolani/speech_synthesis/system/mozilla_tts.py:26-34 | only the language is passed on: the instance plays and saves, with voice `en-US-Wavenet-J`, gender 2 and LINEAR16 |
| LeolaniMozilla.CreateSound | leolani/speech_synthesis/system/mozilla_tts.py:67-79 | a temporary file that cannot be created gives `None` and changes nothing; otherwise a new file under an unused name is added, holding the bytes of the audio that reached it (all of them when the write completes), and nothing else changes |
| LeolaniMozilla.PlayFile | leolani/speech_synthesis/system/mozilla_tts.py:81-104 | without a `try`: a missing or unparsable file raises before playing; otherwise a prefix of the file's chunks is played, playback raises exactly when the device does not open or fails on one of the chunks, and all chunks are played when it does not raise |
| LeolaniMozilla.DeleteFile | leolani/speech_synthesis/system/mozilla_tts.py:106-109 | no file or a nonexistent one changes nothing; otherwise the temporary file is removed, or the removal raises and changes nothing |
| LeolaniMozilla.RunAttempt | leolani/speech_synthesis/system/mozilla_tts.py:52-63 | one attempt fails at the request exactly when the call fails; a missing temporary file fails the attempt exactly when it is to be played; the files afterwards are those before, with their contents unchanged, plus the attempt's own file when it leaked or is kept, holding the bytes of the answer that reached it; a finished attempt keeps its file exactly when saving; when playing, what is played is a prefix of the chunks of the file as written, nothing if it does not parse, and all of them unless playback raised |
| LeolaniMozilla.BodyLeavesWhatItSays | leolani/speech_synthesis/system/mozilla_tts.py:52-63 | every attempt of a call adds exactly the file it leaks, or its finished file when saving, and no other |
| LeolaniMozilla.BodyKeepsContents | leolani/speech_synthesis/system/mozilla_tts.py:52-63 | every attempt of a call leaves the files it found as they were, and the file it leaves holds what that attempt wrote |
| LeolaniMozilla.BodyWellBehaved | leolani/speech_synthesis/system/mozilla_tts.py:52-63 | every attempt only adds files, names only new files, keeps the file it leaks, fails its request exactly as scripted, and plays nothing when playing is off |
| LeolaniMozilla.AttemptLoop | leolani/speech_synthesis/system/mozilla_tts.py:51-65 | at most three attempts, at least one; no attempt but the last finished, and the loop stops early only at an attempt that finished |
| LeolaniMozilla.LoopAddsFreshFiles | leolani/speech_synthesis/system/mozilla_tts.py:51-65 | over the whole loop, files are only added and every attempt's temporary file is new |
| LeolaniMozilla.LoopFailsAsScripted | leolani/speech_synthesis/system/mozilla_tts.py:51-65 | attempt `j` fails at the request if and only if the script says the call of attempt `j` fails |
| LeolaniMozilla.LoopKeepsLeakedFiles | leolani/speech_synthesis/system/mozilla_tts.py:64-65 | every temporary file left by a failed attempt is still on disk after the loop and is no later attempt's file |
| LeolaniMozilla.LoopLeavesWhatAttemptsLeave | leolani/speech_synthesis/system/mozilla_tts.py:51-65 | over the whole loop, the files at the end are those at the start plus exactly the files the attempts leave |
| LeolaniMozilla.LoopKeepsOldFiles | leolani/speech_synthesis/system/mozilla_tts.py:51-65 | over the whole loop, the files there at the start keep their contents |
| LeolaniMozilla.LoopKeepsWrittenFiles | leolani/speech_synthesis/system/mozilla_tts.py:51-65 | over the whole loop, every temporary file still on disk holds what its own attempt wrote, since later attempts only make new files |
| LeolaniMozilla.SilentLoopPlaysNothing | leolani/speech_synthesis/system/mozilla_tts.py:57-58 | attempts that never play leave the device silent over the whole loop |
| LeolaniMozilla.OnTextToSpeech | leolani/speech_synthesis/system/mozilla_tts.py:38-65 | it returns `None` always, after one to three attempts of one identical request each, stopping at the first attempt that finishes; requests fail exactly as scripted; every temporary file is new; every leaked file stays on disk and is distinct; the files afterwards are exactly those before, with their contents unchanged, plus every leaked file and, when saving, the finished attempt's file, each holding the bytes its attempt wrote; nothing plays when `play_file` is off |
| LeolaniMozilla.InstanceFlagsAreIgnored | leolani/speech_synthesis/system/mozilla_tts.py:38-61 | the call behaves the same whatever the instance's `play_audio` and `save_audio`: only the per-call flags count |
| LeolaniMozilla.PlaybackFailureResynthesizes | leolani/speech_synthesis/system/mozilla_tts.py:51-65 | when the first answer's file is made but the device cannot open, the attempt fails, a second request is sent, and the first temporary file stays on disk |
| LeolaniMozilla.CleanCallLeavesNoTrace | leolani/speech_synthesis/system/mozilla_tts.py:38-65 | make, play, delete: with saving off and a first attempt that goes through cleanly, one request is sent, the whole file is played when asked, and the filesystem is exactly as before |

## Left out

- The cloud client (`google.cloud.texttospeech`) and the HTTP client (`requests`) are foreign calls. Each attempt's outcome is a scripted input, and the requests are recorded as data. Constructing the client (`TextToSpeechClient()`) is assumed to succeed; a constructor that raises, for instance on missing credentials, is not modelled.
- WAV/RIFF header parsing and PyAudio are left out. Sample width, channel count and rate do not reach the model. A file is its frames, and a device is whether it opens and which write fails.
- Closing the stream and terminating PyAudio after playback are assumed not to raise. In the current revision and in the older base class such a raise would be swallowed by the surrounding `try`. In the older temporary-file backend it would fail the attempt after every chunk was played, leak the temporary file and start a new synthesis; `Device` cannot express that failure, so the model leaves it out.
- The neural backends (`wavernn.py`, `glow_tts.py`, `wavenet_local.py`) are not part of this model. They are model inference around the same retry shape.
- Setting the credentials environment variable (`src/cltl/speech_synthesis/wavenet_api.py:28-29`) is a process-global side effect and is left out.
- Logging is left out: every logged exception is modelled as swallowed with no observable effect.
- `Files.Join`: `Path(audios_dir)` itself is taken as given, not normalised. The filesystem does not resolve ".." components or symbolic links: a ".." in a prefix is kept as an ordinary component name, as `pathlib` keeps it, but the model does not then step up a directory. A name that starts with exactly two slashes, which POSIX `pathlib` keeps as a root of its own, is treated like one that starts with one.
- `CltlImplementation.FilenameIdentifiesPrefix`: stated only for prefixes without '/'. With '/', different prefixes can name the same file, as `DotPrefixSharesFile` shows for `./p` and `p`.
- `CltlApi.New`: the flags are booleans. A `play_audio=None` or `save_audio=None` argument behaves as false in the source, which is the same as passing `False`.
- `Files.MakeDirs`: a refusal by the operating system is modelled as coming before any directory is made. A failure part-way down a chain of missing ancestors (a full disk after some were made) would leave those ancestors behind, and the model does not.
- `Files.CreateNew`: the temporary file's name is an input chosen by the caller's environment (`Trial.tempName`), not `tempfile`'s random name generator.
- `LeolaniMozilla.OnTextToSpeech` does not gather what each attempt played into one statement about the whole call, beyond "nothing when `play_file` is off". `RunAttempt` states it for one attempt, and `CleanCallLeavesNoTrace` for a call whose first attempt goes through.
- The updates of the `talking` job counter and the concurrent "currently speaking" behaviour are left out. No modelled code changes the counter; this is stated by `LeolaniAbstract.NewInstanceProperties`.
- Real clocks are left out: the time is an input.
- `Clock.Stamp`: years 1 to 999 are rendered zero-padded to four digits. What Python's `%Y` gives for such years depends on the C library, so the stamp for them is a choice of the model. Days up to 31 are accepted in every month, so a time such as 31 February, which `datetime` never produces, is stamped like any other.

## Findings

| source | as written | input that shows it | evidently intended | confidence | as-written member | corrected member |
|---|---|---|---|---|---|---|
| src/cltl/speech_synthesis/implementation.py:30 | the empty-prefix branch calls `strftiøme`, which `datetime` does not have, so naming raises `AttributeError` | `text_to_speech(text)` with the default `audio_file_prefix=''`: each of the three attempts raises at naming, nothing is stored, and the call returns `"None"` or `None` | `strftime('%Y-%m-%d-%H-%M')`, naming the file after the current minute | not executed | CltlImplementation.CreateFilename | CltlImplementation.CreateFilenameIntended |
| leolani/speech_synthesis/abstract/text_to_speech.py:126 | `_delete_file` reads `file.name`, but the cloud backend passes the path string from `_create_audio`, so it raises `AttributeError` | `on_text_to_speech(text)` on a cloud instance with `save_audio` false and a call that answers: the stored file stays and the call raises | remove the file the path string names | not executed | LeolaniAbstract.DeleteFile | LeolaniAbstract.DeleteFileIntended |

The proofs for each row:

- **First row.**
  - As written: `CltlImplementation.DefaultPrefixRaises` shows the discrepancy, and `CltlRetry.EmptyPrefixNeverStores` follows it through the whole call.
  - Corrected: `CltlImplementation.IntendedDefaultNameIsPerMinute` proves the intended property.
- **Second row.**
  - As written: `LeolaniAbstract.DeleteOfCreatedPathRaises` exhibits the failure, and `LeolaniWavenet.OnTextToSpeech` carries it into the call's result.
  - Corrected: `LeolaniAbstract.IntendedDeleteRemovesStoredFile` proves the intended round trip.
  - The as-written `DeleteFile` is correct for the temporary-file backend. That backend passes the temporary-file object, and `LeolaniMozilla.DeleteFile` uses it that way.

Both the as-written and the corrected member are reached from the orchestration, through the call's `Variant`:

- `CltlImplementation.NameFile` uses `CreateFilename` for `AsShipped` and `CreateFilenameIntended` for `Fixed`.
- `LeolaniWavenet.OnTextToSpeech` deletes with `DeleteFile` for `AsShipped` and `DeleteFileIntended` for `Fixed`.

`CltlRetry.FixedDefaultPrefixStores` and `LeolaniWavenet.FixedDeleteRemovesStoredFile` prove the corrected behaviour at the level of a whole call.

=== FILE: calls.dfy ===
/**
 What every `text_to_speech` entry point shares: the attempt cap, the
 behaviour of the outside world during one call, how the attempt loop ends,
 and what one call observably did.
 */
module Calls {
  import opened Runtime
  import opened Files
  import opened Playback
  import opened Service
  import opened Clock

  /** The `range(3)` of every attempt loop. */
  const MaxAttempts: nat := 3

  /**
   What the outside world does during one call: the service's answer to each
   attempt, how the file write goes, how the stored file parses as a
   wave file, how the audio device behaves, whether removing the file
   succeeds, and the time on the clock.
   */
  datatype CallEnv = CallEnv(answers: seq<Outcome>, write: WriteOutcome, wav: WavReader, device: Device, removeOk: bool,
                             now: ValidTime)

  /**
   Which code a call runs: the code as it ships, or the code with its two
   defects corrected (the misspelt `strftime` of the current revision's file
   naming, and the `.name` of a path string in the older revision's deletion).
   */
  datatype Variant = AsShipped | Fixed

  /** How an attempt loop ends: the file stored at some attempt, or every attempt raised. */
  datatype LoopExit = Stored(attempt: nat, saved: Saved) | Exhausted

  /** The `file` variable after the loop: still `None` when every attempt raised. */
  function FileOf(exit: LoopExit): Option<Path>
  {
    if exit.Stored? then Some(exit.saved.file) else None
  }

  /** What one call observably did: its result, the filesystem after it, the audio played, the requests sent. */
  datatype Run = Run(ret: Result<PyObj>, fs: FileSystem, played: seq<Chunk>, requests: seq<Request>)
}

=== FILE: clock.dfy ===
/**
 The wall-clock time the older revision puts into its file names, and the
 `strftime('%Y-%m-%d-%H-%M')` rendering of it. The time is an input to the
 model, never read from a real clock.
 */
module Clock {

  datatype Time = Time(year: nat, month: nat, day: nat, hour: nat, minute: nat, second: nat)

  /** The ranges `datetime` keeps its fields in, except that the day may be 1 to 31 whatever the month. */
  predicate Valid(t: Time)
  {
    && 1 <= t.year <= 9999
    && 1 <= t.month <= 12
    && 1 <= t.day <= 31
    && t.hour < 24
    && t.minute < 60
    && t.second < 60
  }

  /** A time `datetime` can represent. */
  type ValidTime = t: Time | Valid(t) witness Time(1, 1, 1, 0, 0, 0)

  /** Two times that agree on everything the stamp shows: they differ at most in the seconds. */
  predicate SameMinute(a: Time, b: Time)
  {
    a.year == b.year && a.month == b.month && a.day == b.day && a.hour == b.hour && a.minute == b.minute
  }

  function DigitChar(d: nat): char
    requires d < 10
  {
    ('0' as int + d) as char
  }

  /** `%02d`: two decimal digits, zero-padded. */
  function Pad2(n: nat): string
    requires n < 100
  {
    [DigitChar(n / 10), DigitChar(n % 10)]
  }

  /** `%04d`: four decimal digits, zero-padded, as the two high digits and the two low ones. */
  function Pad4(n: nat): string
    requires n < 10000
  {
    Pad2(n / 100) + Pad2(n % 100)
  }

  /** `strftime('%Y-%m-%d-%H-%M')`. */
  function Stamp(t: Time): (s: string)
    requires Valid(t)
    ensures |s| == 16
    ensures '/' !in s
  {
    Pad4(t.year) + "-" + Pad2(t.month) + "-" + Pad2(t.day) + "-" + Pad2(t.hour) + "-" + Pad2(t.minute)
  }

  lemma Pad2Injective(a: nat, b: nat)
    requires a < 100 && b < 100
    requires Pad2(a) == Pad2(b)
    ensures a == b
  {
    assert Pad2(a)[0] == Pad2(b)[0] && Pad2(a)[1] == Pad2(b)[1];
    assert a / 10 == b / 10 && a % 10 == b % 10;
  }

  lemma Pad4Injective(a: nat, b: nat)
    requires a < 10000 && b < 10000
    requires Pad4(a) == Pad4(b)
    ensures a == b
  {
    assert Pad4(a)[..2] == Pad2(a / 100) && Pad4(b)[..2] == Pad2(b / 100);
    assert Pad4(a)[2..] == Pad2(a % 100) && Pad4(b)[2..] == Pad2(b % 100);
    Pad2Injective(a / 100, b / 100);
    Pad2Injective(a % 100, b % 100);
  }

  /** Where each field sits in the stamp. */
  lemma StampFields(t: Time)
    requires Valid(t)
    ensures Stamp(t)[0..4] == Pad4(t.year) && Stamp(t)[5..7] == Pad2(t.month) && Stamp(t)[8..10] == Pad2(t.day)
    ensures Stamp(t)[11..13] == Pad2(t.hour) && Stamp(t)[14..16] == Pad2(t.minute)
  {
    var date := Pad4(t.year) + "-" + Pad2(t.month) + "-" + Pad2(t.day);
    var time := "-" + Pad2(t.hour) + "-" + Pad2(t.minute);
    assert Stamp(t) == date + time;
    assert |date| == 10;
    assert Stamp(t)[0..10] == date && Stamp(t)[10..16] == time;
    assert date[0..4] == Pad4(t.year) && date[5..7] == Pad2(t.month) && date[8..10] == Pad2(t.day);
    assert time[1..3] == Pad2(t.hour) && time[4..6] == Pad2(t.minute);
  }

  /** The stamp identifies the minute: equal stamps exactly when the times share their minute. */
  lemma StampIdentifiesMinute(a: Time, b: Time)
    requires Valid(a) && Valid(b)
    ensures Stamp(a) == Stamp(b) <==> SameMinute(a, b)
  {
    if Stamp(a) == Stamp(b) {
      StampFields(a);
      StampFields(b);
      Pad4Injective(a.year, b.year);
      Pad2Injective(a.month, b.month);
      Pad2Injective(a.day, b.day);
      Pad2Injective(a.hour, b.hour);
      Pad2Injective(a.minute, b.minute);
    }
  }
}

=== FILE: cltl_api.dfy ===
/**
 The component interface of the current revision: its input and output
 records, the configuration every component keeps, and its constructor.
 */
module CltlApi {
  import opened Runtime
  import opened Files
  import opened Service

  /** The class of a component, with what its own constructor adds to the shared configuration. */
  datatype Backend =
    | ComponentBase
    | AbstractComponentBase
    | WavenetApi(voice: Voice, audioEncoding: Encoding)
    | MozillaHttp

  /** `self.__class__.__name__`, which the file names carry. */
  function ClassName(b: Backend): string
  {
    match b
    case ComponentBase => "SpeechSynthesisComponent"
    case AbstractComponentBase => "SpeechSynthesisAbstractComponent"
    case WavenetApi(_, _) => "WavenetAPITextToSpeech"
    case MozillaHttp => "MozillaTextToSpeech"
  }

  /** The instance state of a component, fixed at construction. */
  datatype Component = Component(
    backend: Backend,
    language: string,
    playAudio: bool,
    saveAudio: bool,
    audiosDir: Path)

  datatype Construction = Built(component: Component, fs: FileSystem) | Failed(exc: Exc, fs: FileSystem)

  /** Where the audio files go when no directory is given: `audios` under the package home. */
  function DefaultAudiosDir(packageHome: Path): Path
  {
    packageHome + ["audios"]
  }

  /**
   `SpeechSynthesisComponent.__init__`. `audiosDir` is `None` for a falsy
   argument (`None` or the empty string); a truthy one becomes the directory and
   is created with its parents, which raises when a regular file is in the way
   or when the operating system refuses a missing directory (`mkdirOk` false).
   `packageHome` is where the installed package lives.
   */
  function New(backend: Backend, language: string, playAudio: bool, saveAudio: bool,
               audiosDir: Option<Path>, packageHome: Path, fs: FileSystem, mkdirOk: bool): (r: Construction)
    ensures r.Built? ==> r.component.backend == backend && r.component.language == language
    ensures r.Built? ==> r.component.playAudio == playAudio && r.component.saveAudio == saveAudio
    ensures audiosDir.None? ==> r.Built? && r.fs == fs && r.component.audiosDir == packageHome + ["audios"]
    ensures audiosDir.Some? ==>
      (r.Built? <==> && audiosDir.value !in fs.files && Ancestors(audiosDir.value) !! fs.files.Keys
                     && (audiosDir.value in fs.dirs || mkdirOk))
    ensures audiosDir.Some? && r.Built? ==>
      && r.component.audiosDir == audiosDir.value
      && audiosDir.value in r.fs.dirs
      && Ancestors(audiosDir.value) <= r.fs.dirs
      && r.fs.files == fs.files
    ensures r.Failed? ==> r.fs == fs
  {
    match audiosDir
    case None =>
      Built(Component(backend, language, playAudio, saveAudio, DefaultAudiosDir(packageHome)), fs)
    case Some(dir) =>
      var made := MakeDirs(fs, dir, mkdirOk);
      if made.raised.Some? then Failed(made.raised.value, fs)
      else Built(Component(backend, language, playAudio, saveAudio, dir), made.fs)
  }

  /** The constructor with its default arguments: play, save, and no directory. */
  function NewWithDefaults(backend: Backend, language: string, packageHome: Path, fs: FileSystem): (r: Construction)
    ensures r.Built? && r.fs == fs
    ensures r.component.playAudio && r.component.saveAudio
    ensures r.component.language == language && r.component.audiosDir == packageHome + ["audios"]
  {
    New(backend, language, true, true, None, packageHome, fs, true)
  }

  /** `SpeechSynthesisComponent.text_to_speech`: the interface method, which raises. */
  function BaseTextToSpeech(c: Component, text: string, prefix: string): (r: Result<PyObj>)
    ensures r.Raised? && r.exc == NotImplementedError
  {
    Raised(NotImplementedError)
  }
}

=== FILE: cltl_component.dfy ===
/**
 The `text_to_speech` a caller reaches through a component of the current
 revision: the interface classes raise, the two backends run their loops.
 */
module CltlComponent {
  import opened Runtime
  import opened CltlApi
  import opened Calls
  import CltlWavenet
  import CltlMozilla
  import opened Files

  /** Method dispatch on the component's class. */
  function TextToSpeech(c: Component, fs: FileSystem, text: string, prefix: string, variant: Variant, env: CallEnv)
    : (r: Run)
    ensures c.backend.ComponentBase? || c.backend.AbstractComponentBase? <==> r.ret == Raised(NotImplementedError)
    ensures r.ret == Raised(NotImplementedError) ==> r.fs == fs && r.played == [] && r.requests == []
    ensures r.ret.Returned? ==> (r.ret.value == PyNone <==> !c.saveAudio)
  {
    match c.backend
    case ComponentBase => Run(BaseTextToSpeech(c, text, prefix), fs, [], [])
    case AbstractComponentBase => Run(BaseTextToSpeech(c, text, prefix), fs, [], [])
    case WavenetApi(_, _) => CltlWavenet.TextToSpeech(c, fs, text, prefix, variant, env)
    case MozillaHttp => CltlMozilla.TextToSpeech(c, fs, text, prefix, variant, env)
  }
}

=== FILE: cltl_implementation.dfy ===
/**
 The file handling every backend of the current revision shares: naming,
 storing, playing and deleting the audio file, and moving the audio directory.
 */
module CltlImplementation {
  import opened Runtime
  import opened Files
  import opened Playback
  import opened Clock
  import opened CltlApi
  import opened Calls

  /** What follows the prefix in a file name: `_<ClassName>.wav`. */
  function NameSuffix(c: Component): string
  {
    "_" + ClassName(c.backend) + ".wav"
  }

  /** The file name for a prefix: `<prefix>_<ClassName>.wav`. */
  function AudioName(c: Component, prefix: string): string
  {
    prefix + NameSuffix(c)
  }

  /** Every file name ends in ".wav". */
  lemma AudioNameIsWav(c: Component, prefix: string)
    ensures EndsWith(AudioName(c, prefix), ".wav")
  {
    var head := prefix + "_" + ClassName(c.backend);
    assert AudioName(c, prefix) == head + ".wav";
  }

  /** The class part of a file name contains no '/' and ends in ".wav". */
  lemma NameSuffixIsPlain(c: Component)
    ensures '/' !in NameSuffix(c) && |NameSuffix(c)| >= 2
    ensures EndsWith(NameSuffix(c), ".wav")
  {
    var head := "_" + ClassName(c.backend);
    assert NameSuffix(c) == head + ".wav";
    ClassNameIsPlain(c.backend);
  }

  /** No class name contains '/'. */
  lemma ClassNameIsPlain(b: Backend)
    ensures '/' !in ClassName(b)
  {
    match b
    case ComponentBase => NoSlash("SpeechSynthesisComponent");
    case AbstractComponentBase => NoSlash("SpeechSynthesisAbstractComponent");
    case WavenetApi(_, _) => NoSlash("WavenetAPITextToSpeech");
    case MozillaHttp => NoSlash("MozillaTextToSpeech");
  }

  /** A string of letters contains no '/'. */
  lemma NoSlash(s: string)
    requires forall k | 0 <= k < |s| :: 'A' <= s[k] <= 'Z' || 'a' <= s[k] <= 'z'
    ensures '/' !in s
  {
  }

  /**
   Where the file of a prefix lands, as pathlib joins `audios_dir / name`: the
   last component ends in `_<ClassName>.wav`; a relative prefix keeps the file
   under the audio directory and an absolute one puts it at that absolute
   path; a prefix without '/' names a file directly in the audio directory.
   */
  predicate NamedAfter(c: Component, prefix: string, file: Path)
  {
    && |file| >= 1
    && EndsWith(file[|file| - 1], NameSuffix(c))
    && EndsWith(file[|file| - 1], ".wav")
    && (prefix != "" && prefix[0] == '/' ==> file[0] == "")
    && (!(prefix != "" && prefix[0] == '/') ==> |c.audiosDir| < |file| && file[..|c.audiosDir|] == c.audiosDir)
    && ('/' !in prefix ==> file == c.audiosDir + [AudioName(c, prefix)])
  }

  /** The joined path of every prefix is named after it as `NamedAfter` says. */
  lemma JoinedNameIsNamedAfter(c: Component, prefix: string)
    ensures NamedAfter(c, prefix, Join(c.audiosDir, AudioName(c, prefix)))
  {
    var name := AudioName(c, prefix);
    var file := Join(c.audiosDir, name);
    NameSuffixIsPlain(c);
    PartsEndWith(prefix, NameSuffix(c), "");
    var parts := Parts(name);
    assert |parts| > 0 && EndsWith(parts[|parts| - 1], NameSuffix(c));
    assert file[|file| - 1] == parts[|parts| - 1];
    EndsWithTrans(file[|file| - 1], NameSuffix(c), ".wav");
    if '/' !in prefix {
      assert '/' !in name;
      PartsOfPlain(name, "");
      assert "" + name == name;
    }
  }

  /**
   `create_filename`. A non-empty prefix names the file, joined to the audio
   directory as pathlib joins paths. The empty prefix takes the timestamp
   branch, which calls `strftiøme`, a method `datetime` does not have, so it
   raises.
   */
  function CreateFilename(c: Component, prefix: string): (r: Result<Path>)
    ensures r.Raised? <==> prefix == ""
    ensures r.Raised? ==> r.exc == AttributeError
    ensures r.Returned? ==> NamedAfter(c, prefix, r.value)
  {
    if prefix == "" then Raised(AttributeError)
    else
      JoinedNameIsNamedAfter(c, prefix);
      Returned(Join(c.audiosDir, AudioName(c, prefix)))
  }

  /**
   For prefixes without '/', the name depends on nothing but the prefix (for a
   given directory and class), and tells the prefix back: two stores share a
   file exactly when they share the prefix, so a second store with the same
   prefix overwrites the first.
   */
  lemma FilenameIdentifiesPrefix(c: Component, p1: string, p2: string)
    requires p1 != "" && p2 != ""
    requires '/' !in p1 && '/' !in p2
    ensures CreateFilename(c, p1) == CreateFilename(c, p2) <==> p1 == p2
  {
    if CreateFilename(c, p1) == CreateFilename(c, p2) {
      var f := CreateFilename(c, p1).value;
      assert f[|c.audiosDir|] == AudioName(c, p1) == AudioName(c, p2);
      CancelSuffix(p1, p2, NameSuffix(c));
    }
  }

  /**
   A prefix with '/' in it does not tell the prefix back: pathlib drops "."
   components, so `./p` and `p` name the same file.
   */
  lemma DotPrefixSharesFile(c: Component, prefix: string)
    requires prefix != "" && prefix[0] != '/'
    ensures CreateFilename(c, "./" + prefix) == CreateFilename(c, prefix)
  {
    var name := AudioName(c, prefix);
    assert AudioName(c, "./" + prefix) == "./" + name;
    DotSlashDropped(name);
  }

  /** Two strings that become equal when the same suffix is appended were equal. */
  lemma CancelSuffix(a: string, b: string, tail: string)
    requires a + tail == b + tail
    ensures a == b
  {
    assert |a| == |b|;
    assert a == (a + tail)[..|a|] && b == (b + tail)[..|b|];
  }

  /**
   The timestamp branch as evidently intended (`strftime`): the empty prefix
   is replaced by the minute the call happens in; a non-empty prefix names the
   same file as the code as written.
   */
  function CreateFilenameIntended(c: Component, prefix: string, now: Time): (r: Path)
    requires Valid(now)
    ensures prefix != "" ==> Returned(r) == CreateFilename(c, prefix)
    ensures prefix == "" ==> r == c.audiosDir + [AudioName(c, Stamp(now))]
  {
    var p := if prefix == "" then Stamp(now) else prefix;
    JoinedNameIsNamedAfter(c, p);
    Join(c.audiosDir, AudioName(c, p))
  }

  /**
   With the intended timestamp branch, the default prefix never fails to name
   a file, and two calls name the same file exactly when they fall in the same
   minute.
   */
  lemma IntendedDefaultNameIsPerMinute(c: Component, t1: Time, t2: Time)
    requires Valid(t1) && Valid(t2)
    ensures CreateFilenameIntended(c, "", t1) == CreateFilenameIntended(c, "", t2) <==> SameMinute(t1, t2)
  {
    StampIdentifiesMinute(t1, t2);
    if CreateFilenameIntended(c, "", t1) == CreateFilenameIntended(c, "", t2) {
      var s1, s2 := Stamp(t1), Stamp(t2);
      var n1, n2 := AudioName(c, s1), AudioName(c, s2);
      assert n1 == CreateFilenameIntended(c, "", t1)[|c.audiosDir|];
      assert n2 == CreateFilenameIntended(c, "", t2)[|c.audiosDir|];
      assert n1 == n2;
      assert s1 == n1[..16] && s2 == n2[..16];
    }
  }

  /** The as-written timestamp branch: every call with the default prefix raises. */
  lemma DefaultPrefixRaises(c: Component)
    ensures CreateFilename(c, "") == Raised(AttributeError)
  {
  }

  /**
   The prefix a file is named after: the one given, or for the empty prefix
   the stamp of the current minute, which the corrected timestamp branch uses.
   */
  function EffectivePrefix(prefix: string, now: ValidTime): string
  {
    if prefix == "" then Stamp(now) else prefix
  }

  /**
   `create_filename` in the variant a call runs: as shipped, where the empty
   prefix raises, or corrected, where it never raises.
   */
  function NameFile(c: Component, prefix: string, variant: Variant, now: ValidTime): (r: Result<Path>)
    ensures r.Raised? <==> variant.AsShipped? && prefix == ""
    ensures variant.Fixed? && prefix == "" ==> r == Returned(c.audiosDir + [AudioName(c, Stamp(now))])
    ensures prefix != "" ==> r == CreateFilename(c, prefix)
  {
    match variant
    case AsShipped => CreateFilename(c, prefix)
    case Fixed => Returned(CreateFilenameIntended(c, prefix, now))
  }

  /** In either variant, a returned name is named after the effective prefix as `NamedAfter` says. */
  lemma NameFileIsNamedAfter(c: Component, prefix: string, variant: Variant, now: ValidTime)
    requires NameFile(c, prefix, variant, now).Returned?
    ensures NamedAfter(c, EffectivePrefix(prefix, now), NameFile(c, prefix, variant, now).value)
  {
    if prefix == "" {
      JoinedNameIsNamedAfter(c, Stamp(now));
    }
  }

  /**
   `_create_audio`. The name is computed outside the `try`, so a naming
   failure raises; a failing write is logged and the path is returned all the
   same, with whatever the write left behind.
   */
  function CreateAudio(c: Component, fs: FileSystem, audio: Bytes, prefix: string, variant: Variant, now: ValidTime,
                       w: WriteOutcome): (r: Result<Saved>)
    ensures r.Raised? <==> variant.AsShipped? && prefix == ""
    ensures r.Raised? ==> r.exc == AttributeError
    ensures r.Returned? ==> Returned(r.value.file) == NameFile(c, prefix, variant, now)
    ensures r.Returned? ==>
      && r.value.fs.dirs == fs.dirs
      && r.value.fs.files - {r.value.file} == fs.files - {r.value.file}
    ensures r.Returned? && Writable(fs, r.value.file) && !w.Refused? ==>
      r.value.file in r.value.fs.files && r.value.fs.files[r.value.file] == Kept(audio, w)
    ensures r.Returned? && (!Writable(fs, r.value.file) || w.Refused?) ==> r.value.fs == fs
  {
    match NameFile(c, prefix, variant, now)
    case Raised(e) => Raised(e)
    case Returned(file) => Returned(Saved(file, WriteFile(fs, file, audio, w).fs))
  }

  /**
   `_play_file`. An absent file plays nothing; any failure while opening or
   playing is logged and swallowed, so it never raises and only the chunks
   played before the failure reach the device.
   */
  function PlayFile(fs: FileSystem, file: Option<Path>, wav: WavReader, device: Device): (trace: seq<Chunk>)
    ensures file.None? ==> trace == []
    ensures file.Some? && (file.value !in fs.files || wav(fs.files[file.value]).None?) ==> trace == []
    ensures file.Some? && file.value in fs.files && wav(fs.files[file.value]).Some? ==>
      var frames := wav(fs.files[file.value]).value;
      && trace <= Chunks(frames)
      && (device.opens && device.failsAt.None? ==> Flatten(trace) == frames)
  {
    match file
    case None => []
    case Some(p) =>
      var played := OpenAndStream(fs, p, wav, device);
      if p in fs.files && wav(fs.files[p]).Some? then
        StreamIsPrefixOfChunks(wav(fs.files[p]).value, device);
        ChunksCoverFile(wav(fs.files[p]).value);
        played.trace
      else played.trace
  }

  /**
   `_delete_file`. Removes the file when there is one and it exists; a missing
   path changes nothing. Removing can raise: the path is a directory, or the
   operating system refuses (`removeOk` false); nothing catches that here.
   */
  function DeleteFile(fs: FileSystem, file: Option<Path>, removeOk: bool): (r: Step)
    ensures file.None? || !Exists(fs, file.value) ==> r == Step(fs, None)
    ensures r.raised.Some? ==> r.fs == fs && file.Some? && Exists(fs, file.value)
    ensures r.raised.None? && file.Some? ==>
      !Exists(r.fs, file.value) && r.fs.files == fs.files - {file.value} && r.fs.dirs == fs.dirs
    ensures file.Some? && file.value in fs.files && file.value !in fs.dirs && removeOk ==> r.raised.None?
  {
    match file
    case None => Step(fs, None)
    case Some(p) => if Exists(fs, p) then Remove(fs, p, removeOk) else Step(fs, None)
  }

  /** Deleting twice is deleting once: once the first call returns, the second changes nothing. */
  lemma DeleteFileIdempotent(fs: FileSystem, file: Option<Path>, ok1: bool, ok2: bool)
    requires DeleteFile(fs, file, ok1).raised.None?
    ensures DeleteFile(DeleteFile(fs, file, ok1).fs, file, ok2) == DeleteFile(fs, file, ok1)
  {
  }

  /**
   `set_audio_path`: the new directory is recorded first and then created, so
   the component points at it even when creating it raises (a file in the way,
   or the operating system refusing a missing directory: `mkdirOk` false).
   */
  function SetAudioPath(c: Component, fs: FileSystem, dir: Path, mkdirOk: bool): (r: (Component, Step))
    ensures r.0 == c.(audiosDir := dir)
    ensures r.1.raised.None? <==> dir !in fs.files && Ancestors(dir) !! fs.files.Keys && (dir in fs.dirs || mkdirOk)
    ensures r.1.raised.None? ==> dir in r.1.fs.dirs && r.1.fs.files == fs.files
    ensures r.1.raised.Some? ==> r.1.fs == fs
  {
    (c.(audiosDir := dir), MakeDirs(fs, dir, mkdirOk))
  }
}

=== FILE: cltl_mozilla.dfy ===
/**
 The local HTTP backend of the current revision: a GET to a synthesis server
 on the local machine, wrapped in the shared attempt loop.
 */
module CltlMozilla {
  import opened Runtime
  import opened Files
  import opened Service
  import opened CltlApi
  import opened CltlRetry
  import opened Calls

  /** The fixed endpoint of the local synthesis server. */
  const Endpoint: string := "http://localhost:5002/api/tts"

  /** `MozillaTextToSpeech.__init__`: the shared configuration only. */
  function New(language: string, playAudio: bool, saveAudio: bool, audiosDir: Option<Path>,
               packageHome: Path, fs: FileSystem, mkdirOk: bool): (r: Construction)
    ensures r.Built? ==> r.component.backend == MozillaHttp && r.component.language == language
    ensures r.Built? ==> r.component.playAudio == playAudio && r.component.saveAudio == saveAudio
    ensures audiosDir.None? ==> r.Built? && r.fs == fs
  {
    CltlApi.New(MozillaHttp, language, playAudio, saveAudio, audiosDir, packageHome, fs, mkdirOk)
  }

  /** The request of every attempt: a GET with the text as the `text` query parameter. */
  function RequestFor(text: string): Request
  {
    HttpGet(Endpoint, [("text", text)])
  }

  /**
   `MozillaTextToSpeech.text_to_speech`. The response body is stored as it
   is, whatever the HTTP status: only a raised exception makes an attempt
   fail, and the request of every attempt depends on the text alone.
   */
  function TextToSpeech(c: Component, fs: FileSystem, text: string, prefix: string, variant: Variant, env: CallEnv)
    : (r: Run)
    requires c.backend.MozillaHttp?
    ensures 1 <= |r.requests| <= MaxAttempts
    ensures forall k | 0 <= k < |r.requests| ::
      r.requests[k] == HttpGet("http://localhost:5002/api/tts", [("text", text)])
    ensures c.saveAudio ==> r.ret.Returned? && r.ret.value.PyStr?
    ensures !c.saveAudio ==> r.ret == Returned(PyNone) || (r.ret.Raised? && r.ret.exc.OSError?)
    ensures r.fs.dirs == fs.dirs
    ensures !c.saveAudio && r.ret.Returned? ==>
      r.fs.files.Keys <= fs.files.Keys && forall q | q in r.fs.files :: r.fs.files[q] == fs.files[q]
    ensures !c.playAudio ==> r.played == []
  {
    Orchestrate(c, fs, RequestFor(text), prefix, variant, env)
  }
}

=== FILE: cltl_retry.dfy ===
/**
 The body both backends of the current revision run in `text_to_speech`:
 up to three attempts of request-then-store, stopping at the first that does
 not raise; then one playback, then either the deletion of the file or the
 return of its path.
 */
module CltlRetry {
  import opened Runtime
  import opened Files
  import opened Playback
  import opened Service
  import opened CltlApi
  import opened CltlImplementation
  import opened Calls

  /** Attempt `i` gets through the request and `_create_audio` without raising. */
  predicate AttemptSucceeds(answers: seq<Outcome>, prefix: string, variant: Variant, i: nat)
  {
    Answer(answers, i).Audio? && (prefix != "" || variant.Fixed?)
  }

  /** Every attempt from `i` on raises. */
  predicate AllFailFrom(answers: seq<Outcome>, prefix: string, variant: Variant, i: nat)
  {
    forall j | i <= j < MaxAttempts :: !AttemptSucceeds(answers, prefix, variant, j)
  }

  /**
   The first attempt from `i` on that gets through, if any. An attempt that
   raises does so before anything is written (the request, or the name
   computed outside the `try` of `_create_audio`), so the attempts before it
   leave nothing behind.
   */
  function FirstSuccess(answers: seq<Outcome>, prefix: string, variant: Variant, i: nat): (r: Option<nat>)
    requires i <= MaxAttempts
    ensures r.None? <==> AllFailFrom(answers, prefix, variant, i)
    ensures r.Some? ==>
      && i <= r.value < MaxAttempts
      && AttemptSucceeds(answers, prefix, variant, r.value)
      && (forall j | i <= j < r.value :: !AttemptSucceeds(answers, prefix, variant, j))
    decreases MaxAttempts - i
  {
    if i == MaxAttempts then None
    else if AttemptSucceeds(answers, prefix, variant, i) then Some(i)
    else FirstSuccess(answers, prefix, variant, i + 1)
  }

  /**
   The attempt loop. An attempt whose request raises, or whose
   `_create_audio` raises, is logged and the next attempt runs; the first
   attempt that gets through ends the loop with the file it stored.
   */
  function StoreLoop(c: Component, fs: FileSystem, prefix: string, variant: Variant, env: CallEnv): (r: LoopExit)
    ensures r.Exhausted? <==> AllFailFrom(env.answers, prefix, variant, 0)
    ensures r.Stored? ==>
      && r.attempt < MaxAttempts
      && AttemptSucceeds(env.answers, prefix, variant, r.attempt)
      && (forall j | 0 <= j < r.attempt :: !AttemptSucceeds(env.answers, prefix, variant, j))
    ensures r.Stored? ==>
      Returned(r.saved) == CreateAudio(c, fs, Answer(env.answers, r.attempt).content, prefix, variant, env.now, env.write)
  {
    match FirstSuccess(env.answers, prefix, variant, 0)
    case None => Exhausted
    case Some(k) =>
      var stored := CreateAudio(c, fs, Answer(env.answers, k).content, prefix, variant, env.now, env.write);
      Stored(k, stored.value)
  }

  /** `str(file)`: the path, or the string "None" for `None`. */
  function StrOf(file: Option<Path>): (r: string)
    ensures file.None? ==> r == "None"
    ensures file.Some? && |file.value| >= 1 ==> EndsWith(r, file.value[|file.value| - 1])
  {
    match file
    case None => "None"
    case Some(p) =>
      if |p| >= 1 then PathStringEndsWithName(p); PathString(p) else PathString(p)
  }

  /**
   `text_to_speech` of a backend that sends `request` on every attempt. The
   loop's exceptions are all swallowed; only the removal of the file after it
   can raise. Only the named file is ever written, so when the call does not
   save and returns, no file is left behind and no contents have changed.
   */
  function Orchestrate(c: Component, fs: FileSystem, request: Request, prefix: string, variant: Variant, env: CallEnv)
    : (r: Run)
    ensures 1 <= |r.requests| <= MaxAttempts
    ensures forall k | 0 <= k < |r.requests| :: r.requests[k] == request
    ensures forall j | 0 <= j < |r.requests| - 1 :: !AttemptSucceeds(env.answers, prefix, variant, j)
    ensures |r.requests| < MaxAttempts ==> AttemptSucceeds(env.answers, prefix, variant, |r.requests| - 1)
    ensures c.saveAudio ==> r.ret.Returned? && r.ret.value.PyStr?
    ensures !c.saveAudio ==> r.ret == Returned(PyNone) || (r.ret.Raised? && r.ret.exc.OSError?)
    ensures !c.playAudio ==> r.played == []
    ensures r.fs.dirs == fs.dirs
    ensures !c.saveAudio && r.ret.Returned? ==>
      r.fs.files.Keys <= fs.files.Keys && forall q | q in r.fs.files :: r.fs.files[q] == fs.files[q]
    ensures AllFailFrom(env.answers, prefix, variant, 0) ==>
      |r.requests| == MaxAttempts && r.fs == fs && r.played == [] &&
      r.ret == (if c.saveAudio then Returned(PyStr("None")) else Returned(PyNone))
  {
    var exit := StoreLoop(c, fs, prefix, variant, env);
    var stored := if exit.Stored? then exit.saved.fs else fs;
    var requests := seq(if exit.Stored? then exit.attempt + 1 else MaxAttempts, _ => request);
    assert exit.Stored? ==> stored.files - {exit.saved.file} == fs.files - {exit.saved.file};
    AfterLoop(c, stored, FileOf(exit), env, requests)
  }

  /**
   What follows the loop: one playback of `file`, then its removal, or the
   return of `str(file)`. Only the removal can raise.
   */
  function AfterLoop(c: Component, fs: FileSystem, file: Option<Path>, env: CallEnv, requests: seq<Request>): (r: Run)
    ensures r.requests == requests
    ensures c.saveAudio ==> r.ret == Returned(PyStr(StrOf(file))) && r.fs == fs
    ensures !c.saveAudio ==> r.ret == Returned(PyNone) || (r.ret.Raised? && r.ret.exc.OSError?)
    ensures !c.playAudio || file.None? ==> r.played == []
    ensures file.None? ==> r.fs == fs && r.ret == (if c.saveAudio then Returned(PyStr("None")) else Returned(PyNone))
    ensures c.playAudio && file.Some? && file.value in fs.files && env.wav(fs.files[file.value]).Some? ==>
      var frames := env.wav(fs.files[file.value]).value;
      && r.played <= Chunks(frames)
      && (env.device.opens && env.device.failsAt.None? ==> Flatten(r.played) == frames)
    ensures r.fs.dirs == fs.dirs
    ensures r.ret.Raised? ==> r.fs == fs
    ensures !c.saveAudio && r.ret.Returned? && file.Some? ==> !Exists(r.fs, file.value) && r.fs.files == fs.files - {file.value}
    ensures !c.saveAudio && file.Some? && file.value in fs.files && file.value !in fs.dirs && env.removeOk ==>
      r.ret == Returned(PyNone)
  {
    var played := if c.playAudio then PlayFile(fs, file, env.wav, env.device) else [];
    if !c.saveAudio then
      var deleted := DeleteFile(fs, file, env.removeOk);
      Run(if deleted.raised.Some? then Raised(deleted.raised.value) else Returned(PyNone), deleted.fs, played, requests)
    else
      Run(Returned(PyStr(StrOf(file))), fs, played, requests)
  }

  /**
   With `save_audio` set, the result is the string "None" exactly when every
   attempt raised: a stored path always ends in ".wav", so it is never "None".
   */
  lemma NoneStringIffAllAttemptsFail(c: Component, fs: FileSystem, request: Request, prefix: string, variant: Variant,
                                     env: CallEnv)
    requires c.saveAudio
    ensures Orchestrate(c, fs, request, prefix, variant, env).ret == Returned(PyStr("None"))
        <==> AllFailFrom(env.answers, prefix, variant, 0)
  {
    var exit := StoreLoop(c, fs, prefix, variant, env);
    assert Orchestrate(c, fs, request, prefix, variant, env).ret == Returned(PyStr(StrOf(FileOf(exit))));
    if exit.Stored? {
      NameFileIsNamedAfter(c, prefix, variant, env.now);
      WavPathIsNotNone(exit.saved.file);
    }
  }

  /** A path whose file name ends in ".wav" never renders as "None". */
  lemma WavPathIsNotNone(p: Path)
    requires |p| >= 1 && EndsWith(p[|p| - 1], ".wav")
    ensures PathString(p) != "None"
  {
    PathStringEndsWithName(p);
    var name, s := p[|p| - 1], PathString(p);
    assert name[|name| - 1] == ".wav"[3];
    assert s[|s| - 1] == name[|name| - 1];
    assert "None"[3] == 'e';
  }

  /**
   The default empty prefix fails every attempt at naming the file: three
   requests are sent even when the service answers, nothing is written or
   played, and the result is `None` or the string "None".
   */
  lemma EmptyPrefixNeverStores(c: Component, fs: FileSystem, request: Request, env: CallEnv)
    ensures var r := Orchestrate(c, fs, request, "", AsShipped, env);
      && |r.requests| == MaxAttempts
      && r.fs == fs
      && r.played == []
      && r.ret == (if c.saveAudio then Returned(PyStr("None")) else Returned(PyNone))
  {
  }

  /**
   With the timestamp branch corrected, the default empty prefix stores the
   first answer under the current minute's name: one request is sent, and
   when saving, that path is the result.
   */
  lemma FixedDefaultPrefixStores(c: Component, fs: FileSystem, request: Request, env: CallEnv)
    requires c.saveAudio && Answer(env.answers, 0).Audio?
    ensures var r := Orchestrate(c, fs, request, "", Fixed, env);
      && |r.requests| == 1
      && r.ret == Returned(PyStr(PathString(CreateFilenameIntended(c, "", env.now))))
  {
    assert AttemptSucceeds(env.answers, "", Fixed, 0);
  }

  /**
   A failing write is not retried: `_create_audio` swallows it, so a first
   attempt whose service call answers is the only attempt, whatever the disk
   does, and the result does not depend on how the write went.
   */
  lemma WriteFailureIsNotRetried(c: Component, fs: FileSystem, request: Request, prefix: string, variant: Variant,
                                 env: CallEnv, other: WriteOutcome)
    requires (prefix != "" || variant.Fixed?) && Answer(env.answers, 0).Audio?
    ensures |Orchestrate(c, fs, request, prefix, variant, env).requests| == 1
    ensures |Orchestrate(c, fs, request, prefix, variant, env.(write := other)).requests| == 1
    ensures c.saveAudio ==>
      Orchestrate(c, fs, request, prefix, variant, env).ret == Orchestrate(c, fs, request, prefix, variant, env.(write := other)).ret
  {
    assert AttemptSucceeds(env.answers, prefix, variant, 0);
  }

  /**
   With `save_audio` set and the first answering attempt's file written, the
   result is that file's path, the file holds exactly the audio of that answer,
   and no other path changed. Playing is not skipped for a file that is kept:
   with `play_audio` set, that audio is what reaches the device.
   */
  lemma SavedFileHoldsAudio(c: Component, fs: FileSystem, request: Request, prefix: string, variant: Variant,
                            env: CallEnv, k: nat)
    requires c.saveAudio && env.write.Complete? && (prefix != "" || variant.Fixed?)
    requires k < MaxAttempts && Answer(env.answers, k).Audio?
    requires forall j | 0 <= j < k :: Answer(env.answers, j).Fail?
    requires Writable(fs, NameFile(c, prefix, variant, env.now).value)
    ensures var r := Orchestrate(c, fs, request, prefix, variant, env);
      var file := NameFile(c, prefix, variant, env.now).value;
      && r.ret == Returned(PyStr(PathString(file)))
      && file in r.fs.files && r.fs.files[file] == Answer(env.answers, k).content
      && r.fs.files - {file} == fs.files - {file}
      && r.fs.dirs == fs.dirs
      && |r.requests| == k + 1
      && (c.playAudio && env.wav(Answer(env.answers, k).content).Some? ==>
            var frames := env.wav(Answer(env.answers, k).content).value;
            && r.played <= Chunks(frames)
            && (env.device.opens && env.device.failsAt.None? ==> Flatten(r.played) == frames))
  {
    var exit := StoreLoop(c, fs, prefix, variant, env);
    assert AttemptSucceeds(env.answers, prefix, variant, k);
    assert !AllFailFrom(env.answers, prefix, variant, 0);
    assert exit.Stored?;
    assert exit.attempt == k;
  }

  /**
   Store, play, delete: with `save_audio` off, the file the first answering
   attempt wrote, whole or broken off part-way, is removed, leaving the
   filesystem as it was except that the path is gone (a file already there
   under that name is lost too); the result is `None`, and what was played is
   the audio as written, all of it on a working device.
   */
  lemma StorePlayDeleteRoundTrip(c: Component, fs: FileSystem, request: Request, prefix: string, variant: Variant,
                                 env: CallEnv, k: nat)
    requires !c.saveAudio && !env.write.Refused? && env.removeOk && (prefix != "" || variant.Fixed?)
    requires k < MaxAttempts && Answer(env.answers, k).Audio?
    requires forall j | 0 <= j < k :: Answer(env.answers, j).Fail?
    requires Writable(fs, NameFile(c, prefix, variant, env.now).value)
    ensures var r := Orchestrate(c, fs, request, prefix, variant, env);
      var file := NameFile(c, prefix, variant, env.now).value;
      var frames := env.wav(Kept(Answer(env.answers, k).content, env.write));
      && r.ret == Returned(PyNone)
      && r.fs.files == fs.files - {file}
      && r.fs.dirs == fs.dirs
      && |r.requests| == k + 1
      && (c.playAudio && frames.Some? ==>
            && r.played <= Chunks(frames.value)
            && (env.device.opens && env.device.failsAt.None? ==> Flatten(r.played) == frames.value))
  {
    var exit := StoreLoop(c, fs, prefix, variant, env);
    assert AttemptSucceeds(env.answers, prefix, variant, k);
    assert !AllFailFrom(env.answers, prefix, variant, 0);
    assert exit.Stored? && exit.attempt == k;
    var file := exit.saved.file;
    assert file in exit.saved.fs.files && file !in exit.saved.fs.dirs;
  }
}

=== FILE: cltl_wavenet.dfy ===
/**
 The cloud synthesis backend of the current revision: a voice chosen once at
 construction, and the shared attempt loop around the cloud call.
 */
module CltlWavenet {
  import opened Runtime
  import opened Files
  import opened Service
  import opened CltlApi
  import opened CltlRetry
  import opened Calls

  /** The named voice this revision asks for. */
  const VoiceType: string := "en-US-Wavenet-H"

  /** The voice selection built in the constructor from the language alone. */
  function VoiceFor(language: string): Voice
  {
    Voice(language, VoiceType, Gender)
  }

  /**
   `WavenetAPITextToSpeech.__init__`: the shared configuration, plus the
   voice and the LINEAR16 encoding every request will carry.
   */
  function New(language: string, playAudio: bool, saveAudio: bool, audiosDir: Option<Path>,
               packageHome: Path, fs: FileSystem, mkdirOk: bool): (r: Construction)
    ensures r.Built? ==> r.component.backend == WavenetApi(Voice(language, "en-US-Wavenet-H", 2), LINEAR16)
    ensures r.Built? ==> r.component.language == language
    ensures r.Built? ==> r.component.playAudio == playAudio && r.component.saveAudio == saveAudio
    ensures audiosDir.None? ==> r.Built? && r.fs == fs
  {
    CltlApi.New(WavenetApi(VoiceFor(language), LINEAR16), language, playAudio, saveAudio, audiosDir, packageHome, fs, mkdirOk)
  }

  /** The request of every attempt: the text, the instance's voice, LINEAR16. */
  function RequestFor(c: Component, text: string): Request
    requires c.backend.WavenetApi?
  {
    SynthesizeSpeech(text, c.backend.voice, c.backend.audioEncoding)
  }

  /**
   `WavenetAPITextToSpeech.text_to_speech`: at most three cloud requests, all
   the same, stopping at the first whose audio gets named; then play, then
   delete and return `None`, or return `str(file)`.
   */
  function TextToSpeech(c: Component, fs: FileSystem, text: string, prefix: string, variant: Variant, env: CallEnv)
    : (r: Run)
    requires c.backend.WavenetApi?
    ensures 1 <= |r.requests| <= MaxAttempts
    ensures forall k | 0 <= k < |r.requests| :: r.requests[k] == SynthesizeSpeech(text, c.backend.voice, LINEAR16)
    ensures c.saveAudio ==> r.ret.Returned? && r.ret.value.PyStr?
    ensures !c.saveAudio ==> r.ret == Returned(PyNone) || (r.ret.Raised? && r.ret.exc.OSError?)
    ensures !c.playAudio ==> r.played == []
    ensures r.fs.dirs == fs.dirs
    ensures !c.saveAudio && r.ret.Returned? ==>
      r.fs.files.Keys <= fs.files.Keys && forall q | q in r.fs.files :: r.fs.files[q] == fs.files[q]
  {
    Orchestrate(c, fs, RequestFor(c, text), prefix, variant, env)
  }
}

=== FILE: files.dfy ===
/**
 The filesystem the synthesis code writes its audio files to, reduced to what
 the code observes: which paths are directories, and which paths are regular
 files with which contents. Every operation returns the new filesystem together
 with the exception it raised, if any.
 */
module Files {
  import opened Runtime

  /** A path as its list of components; an absolute path starts with the empty component. */
  type Path = seq<string>

  predicate EndsWith(s: string, suffix: string)
  {
    |suffix| <= |s| && s[|s| - |suffix|..] == suffix
  }

  /** Ending with a suffix of a suffix. */
  lemma EndsWithTrans(s: string, t: string, u: string)
    requires EndsWith(s, t) && EndsWith(t, u)
    ensures EndsWith(s, u)
  {
    assert s[|s| - |u|..] == s[|s| - |t|..][|t| - |u|..];
  }

  /** `str()` of a path: its components joined by '/'; the empty path is ".". */
  function PathString(p: Path): string
  {
    if |p| == 0 then "."
    else if |p| == 1 then p[0]
    else PathString(p[..|p| - 1]) + "/" + p[|p| - 1]
  }

  /** The rendered path ends with the path's last component. */
  lemma PathStringEndsWithName(p: Path)
    requires |p| >= 1
    ensures EndsWith(PathString(p), p[|p| - 1])
  {
    if |p| > 1 {
      var s := PathString(p[..|p| - 1]) + "/";
      assert PathString(p) == s + p[|p| - 1];
      assert PathString(p)[|s|..] == p[|p| - 1];
    }
  }

  /** A component pathlib keeps: it drops the empty and the "." ones. */
  function Keep(part: string): (r: seq<string>)
    ensures r == [] <==> part == "" || part == "."
    ensures r != [] ==> r == [part]
  {
    if part == "" || part == "." then [] else [part]
  }

  /**
   The components pathlib reads from `s`, when `cur` holds the characters of
   the component already begun: `s` is split at every '/', and empty and "."
   components are dropped.
   */
  function PartsFrom(s: string, cur: string): (r: seq<string>)
    requires '/' !in cur
    ensures forall k | 0 <= k < |r| :: r[k] != "" && r[k] != "." && '/' !in r[k]
    decreases |s|
  {
    if |s| == 0 then Keep(cur)
    else if s[0] == '/' then Keep(cur) + PartsFrom(s[1..], "")
    else PartsFrom(s[1..], cur + [s[0]])
  }

  /** The components of a name as `PurePosixPath(name).parts` has them, the root left out. */
  function Parts(s: string): seq<string>
  {
    PartsFrom(s, "")
  }

  /** A name without '/' reaches the path as one component, itself, unless it is "" or ".". */
  lemma {:induction false} PartsOfPlain(s: string, cur: string)
    requires '/' !in cur && '/' !in s
    ensures PartsFrom(s, cur) == Keep(cur + s)
    decreases |s|
  {
    if |s| > 0 {
      PartsOfPlain(s[1..], cur + [s[0]]);
      assert cur + [s[0]] + s[1..] == cur + s;
    } else {
      assert cur + s == cur;
    }
  }

  /**
   A name that ends in a '/'-free piece of two or more characters ends, as a
   path, in a component that ends with that piece, whatever comes before it.
   */
  lemma {:induction false} PartsEndWith(s: string, t: string, cur: string)
    requires '/' !in cur && '/' !in t && |t| >= 2
    ensures |PartsFrom(s + t, cur)| > 0
    ensures EndsWith(PartsFrom(s + t, cur)[|PartsFrom(s + t, cur)| - 1], t)
    decreases |s|
  {
    if |s| == 0 {
      assert s + t == t;
      PartsOfPlain(t, cur);
      assert (cur + t)[|cur|..] == t;
    } else {
      assert (s + t)[1..] == s[1..] + t;
      if s[0] == '/' {
        PartsEndWith(s[1..], t, "");
      } else {
        PartsEndWith(s[1..], t, cur + [s[0]]);
      }
    }
  }

  /** A leading "./" adds nothing to a name's components. */
  lemma DotSlashDropped(s: string)
    ensures Parts("./" + s) == Parts(s)
  {
    assert ("./" + s)[0] == '.' && ("./" + s)[1..] == "/" + s;
    assert "" + ['.'] == ".";
    assert PartsFrom("./" + s, "") == PartsFrom("/" + s, ".");
    assert ("/" + s)[0] == '/' && ("/" + s)[1..] == s;
    assert PartsFrom("/" + s, ".") == Keep(".") + PartsFrom(s, "");
  }

  /**
   `directory / name` in pathlib: the name's components are appended to the
   directory, except that an absolute name replaces the directory.
   */
  function Join(dir: Path, name: string): (r: Path)
    ensures |name| > 0 && name[0] == '/' ==> r == [""] + Parts(name)
    ensures !(|name| > 0 && name[0] == '/') ==> |dir| <= |r| && r[..|dir|] == dir && r[|dir|..] == Parts(name)
  {
    if |name| > 0 && name[0] == '/' then [""] + Parts(name) else dir + Parts(name)
  }

  /** The non-empty proper prefixes of a path: the directories that contain it. */
  function Ancestors(p: Path): (r: set<Path>)
    ensures forall k | 1 <= k < |p| :: p[..k] in r
    ensures forall a | a in r :: |a| < |p| && a == p[..|a|]
  {
    set k | 1 <= k < |p| :: p[..k]
  }

  datatype FileSystem = FileSystem(dirs: set<Path>, files: map<Path, Bytes>)

  /** An audio file path handed back by a store, and the filesystem after the store. */
  datatype Saved = Saved(file: Path, fs: FileSystem)

  /** The new filesystem after an operation, and the exception it raised. */
  datatype Step = Step(fs: FileSystem, raised: Option<Exc>)

  /** `os.path.exists` / `Path.exists`: true for files and for directories. */
  predicate Exists(fs: FileSystem, p: Path)
  {
    p in fs.files || p in fs.dirs
  }

  /** The directory a path lives in exists (a one-component path lives in the working directory). */
  predicate ParentExists(fs: FileSystem, p: Path)
  {
    |p| == 1 || (|p| > 1 && p[..|p| - 1] in fs.dirs)
  }

  /** `open(p, 'wb')` succeeds: the path is not a directory and its directory exists. */
  predicate Writable(fs: FileSystem, p: Path)
  {
    p !in fs.dirs && ParentExists(fs, p)
  }

  /**
   `Path.mkdir(parents=True, exist_ok=True)`: creates the directory and every
   missing ancestor; an existing directory is accepted, but a regular file in
   the way raises. `mkdirOk` is false when the operating system refuses to
   create a missing directory (no permission, a read-only filesystem).
   */
  function MakeDirs(fs: FileSystem, p: Path, mkdirOk: bool): (r: Step)
    ensures r.raised.None? <==> p !in fs.files && Ancestors(p) !! fs.files.Keys && (p in fs.dirs || mkdirOk)
    ensures r.raised.None? ==> r.fs.files == fs.files && r.fs.dirs == fs.dirs + Ancestors(p) + {p}
    ensures r.raised.Some? ==> r.fs == fs
  {
    if p in fs.files then Step(fs, Some(OSError(EEXIST)))
    else if !(Ancestors(p) !! fs.files.Keys) then Step(fs, Some(OSError(ENOTDIR)))
    else if p !in fs.dirs && !mkdirOk then Step(fs, Some(OSError(EACCES)))
    else Step(fs.(dirs := fs.dirs + Ancestors(p) + {p}), None)
  }

  /**
   How a write goes once the path itself is fine: it completes; it is refused
   when the file is opened (no permission on an existing file); or it breaks
   after `kept` bytes have reached the file (a full disk, an I/O error).
   */
  datatype WriteOutcome = Complete | Refused | Broken(kept: nat)

  /** What an opened and truncated file holds once the write is over. */
  function Kept(data: Bytes, w: WriteOutcome): (r: Bytes)
    ensures r <= data
    ensures r == data <== w.Complete?
    ensures w.Broken? ==> |r| == if w.kept < |data| then w.kept else |data|
  {
    match w
    case Complete => data
    case Refused => []
    case Broken(k) => if k < |data| then data[..k] else data
  }

  /**
   `open(p, 'wb')` followed by `write(data)`. Opening a directory or a path
   whose directory is missing raises and changes nothing, and so does a refused
   open; once opened, the file exists and is truncated, so a broken write
   leaves the bytes that reached it.
   */
  function WriteFile(fs: FileSystem, p: Path, data: Bytes, w: WriteOutcome): (r: Step)
    ensures r.raised.None? <==> Writable(fs, p) && w.Complete?
    ensures r.raised.None? ==> p in r.fs.files && r.fs.files[p] == data
    ensures r.fs.dirs == fs.dirs
    ensures !Writable(fs, p) || w.Refused? ==> r.fs == fs
    ensures Writable(fs, p) && !w.Refused? ==> r.fs.files == fs.files[p := Kept(data, w)]
  {
    if p in fs.dirs then Step(fs, Some(OSError(EISDIR)))
    else if !ParentExists(fs, p) then Step(fs, Some(OSError(ENOENT)))
    else if w.Refused? then Step(fs, Some(OSError(EACCES)))
    else if w.Broken? then Step(fs.(files := fs.files[p := Kept(data, w)]), Some(OSError(EIO)))
    else Step(fs.(files := fs.files[p := data]), None)
  }

  /**
   Exclusive creation of a new empty file, as `tempfile` does it: a path that
   exists already, or whose directory is missing, is refused.
   */
  function CreateNew(fs: FileSystem, p: Path): (r: Step)
    ensures r.raised.None? <==> !Exists(fs, p) && ParentExists(fs, p)
    ensures r.raised.None? ==> r.fs.files == fs.files[p := []] && r.fs.dirs == fs.dirs
    ensures r.raised.Some? ==> r.fs == fs
  {
    if Exists(fs, p) then Step(fs, Some(OSError(EEXIST)))
    else if !ParentExists(fs, p) then Step(fs, Some(OSError(ENOENT)))
    else Step(fs.(files := fs.files[p := []]), None)
  }

  /**
   `Path.unlink` / `os.remove`: removes a regular file. A directory, a missing
   path, or a refusal by the operating system (`removeOk` false) raises.
   */
  function Remove(fs: FileSystem, p: Path, removeOk: bool): (r: Step)
    ensures r.raised.None? <==> p in fs.files && p !in fs.dirs && removeOk
    ensures r.raised.None? ==> r.fs.files == fs.files - {p} && r.fs.dirs == fs.dirs
    ensures r.raised.Some? ==> r.fs == fs
  {
    if p in fs.dirs then Step(fs, Some(OSError(EISDIR)))
    else if p !in fs.files then Step(fs, Some(OSError(ENOENT)))
    else if !removeOk then Step(fs, Some(OSError(EIO)))
    else Step(fs.(files := fs.files - {p}), None)
  }
}

=== FILE: leolani_abstract.dfy ===
/**
 The base class of the older revision, `AbstractTextToSpeech`: its
 configuration, its two properties, and the file handling its backends share.
 */
module LeolaniAbstract {
  import opened Runtime
  import opened Files
  import opened Playback
  import opened Clock
  import opened Service

  /** The class of an instance, with the voice its own constructor builds. */
  datatype Backend =
    | AbstractBase
    | WavenetApi(voice: Voice, audioEncoding: Encoding)
    | TempFileWavenet(voice: Voice, audioEncoding: Encoding)

  /**
   `self.__class__.__name__`. Both backends of this revision are classes
   named `WavenetAPITextToSpeech`.
   */
  function ClassName(b: Backend): string
  {
    if b.AbstractBase? then "AbstractTextToSpeech" else "WavenetAPITextToSpeech"
  }

  datatype Tts = Tts(
    backend: Backend,
    language: string,
    playAudio: bool,
    saveAudio: bool,
    talkingJobs: nat,
    audiosDir: Path)

  /**
   `AbstractTextToSpeech.__init__`. The audio directory is the directory three
   levels above the module file, `packageRoot`; nothing is created.
   */
  function New(backend: Backend, language: string, playAudio: bool, saveAudio: bool, packageRoot: Path): (r: Tts)
    ensures r.backend == backend && r.language == language
    ensures r.playAudio == playAudio && r.saveAudio == saveAudio
    ensures r.audiosDir == packageRoot
    ensures !Talking(r)
  {
    Tts(backend, language, playAudio, saveAudio, 0, packageRoot)
  }

  /** The `language` property: the language the instance keeps, which is the constructor's argument. */
  function Language(t: Tts): (r: string)
    ensures r == t.language
  {
    t.language
  }

  /** The `talking` property: some job is counted as in progress. */
  predicate Talking(t: Tts)
    ensures Talking(t) <==> t.talkingJobs != 0
  {
    t.talkingJobs >= 1
  }

  /**
   The `language` and `talking` properties of a new instance: the language
   it was given, and not talking. No code of this revision changes the job
   counter, so an instance never talks.
   */
  lemma NewInstanceProperties(backend: Backend, language: string, playAudio: bool, saveAudio: bool, packageRoot: Path)
    ensures Language(New(backend, language, playAudio, saveAudio, packageRoot)) == language
    ensures !Talking(New(backend, language, playAudio, saveAudio, packageRoot))
  {
  }

  /** The file name of this revision: `<ClassName>_<YYYY-MM-DD-HH-MM>.wav`, class first. */
  function StampedName(t: Tts, now: Time): string
    requires Valid(now)
  {
    ClassName(t.backend) + "_" + Stamp(now) + ".wav"
  }

  /** `create_filename`: `<audios_dir>/audios/<name>`, from the current time. */
  function CreateFilename(t: Tts, now: Time): (r: Path)
    requires Valid(now)
    ensures |r| == |t.audiosDir| + 2 && r[..|t.audiosDir|] == t.audiosDir
    ensures r[|t.audiosDir|] == "audios" && r[|t.audiosDir| + 1] == StampedName(t, now)
  {
    t.audiosDir + ["audios", StampedName(t, now)]
  }

  /** Two calls name the same file exactly when they fall in the same minute. */
  lemma FilenameIsPerMinute(t: Tts, t1: Time, t2: Time)
    requires Valid(t1) && Valid(t2)
    ensures CreateFilename(t, t1) == CreateFilename(t, t2) <==> SameMinute(t1, t2)
  {
    StampIdentifiesMinute(t1, t2);
    if CreateFilename(t, t1) == CreateFilename(t, t2) {
      var n1, n2 := StampedName(t, t1), StampedName(t, t2);
      assert n1 == CreateFilename(t, t1)[|t.audiosDir| + 1];
      assert n1 == n2;
      var k := |ClassName(t.backend) + "_"|;
      assert Stamp(t1) == n1[k..k + 16] && Stamp(t2) == n2[k..k + 16];
    }
  }

  /**
   `_create_audio`: never raises. A failing write is logged and the path is
   returned all the same.
   */
  function CreateAudio(t: Tts, fs: FileSystem, audio: Bytes, now: Time, w: WriteOutcome): (r: Saved)
    requires Valid(now)
    ensures r.file == CreateFilename(t, now)
    ensures r.fs.dirs == fs.dirs && r.fs.files - {r.file} == fs.files - {r.file}
    ensures Writable(fs, r.file) && !w.Refused? ==> r.file in r.fs.files && r.fs.files[r.file] == Kept(audio, w)
    ensures !Writable(fs, r.file) || w.Refused? ==> r.fs == fs
  {
    var file := CreateFilename(t, now);
    Saved(file, WriteFile(fs, file, audio, w).fs)
  }

  /**
   `_play_file`. There is no guard for a missing file, but `wave.open(None)`
   raises inside the `try` like every other failure: all are logged and
   swallowed, so nothing but the chunks played before a failure reach the device.
   */
  function PlayFile(fs: FileSystem, file: Option<Path>, wav: WavReader, device: Device): (trace: seq<Chunk>)
    ensures file.None? ==> trace == []
    ensures file.Some? && (file.value !in fs.files || wav(fs.files[file.value]).None?) ==> trace == []
    ensures file.Some? && file.value in fs.files && wav(fs.files[file.value]).Some? ==>
      var frames := wav(fs.files[file.value]).value;
      && trace <= Chunks(frames)
      && (device.opens && device.failsAt.None? ==> Flatten(trace) == frames)
  {
    match file
    case None => []
    case Some(p) =>
      if p in fs.files && wav(fs.files[p]).Some? then
        StreamIsPrefixOfChunks(wav(fs.files[p]).value, device);
        ChunksCoverFile(wav(fs.files[p]).value);
        OpenAndStream(fs, p, wav, device).trace
      else []
  }

  /** The Python value passed as `file`: `None`, a path string, or a temporary-file object. */
  datatype FileRef = NoFile | PathStr(path: Path) | TempHandle(path: Path)

  /**
   `_delete_file`: `file and os.path.exists(file.name)`. A string has no
   `name`, so any non-empty path string raises; `None` changes nothing; a
   temporary-file object has its file removed when it exists.
   */
  function DeleteFile(fs: FileSystem, file: FileRef, removeOk: bool): (r: Step)
    ensures file.NoFile? ==> r == Step(fs, None)
    ensures file.PathStr? && PathString(file.path) != "" ==> r == Step(fs, Some(AttributeError))
    ensures file.TempHandle? && !Exists(fs, file.path) ==> r == Step(fs, None)
    ensures file.TempHandle? && r.raised.None? ==> !Exists(r.fs, file.path) && r.fs.files == fs.files - {file.path}
    ensures r.raised.Some? ==> r.fs == fs
    ensures file.TempHandle? && file.path in fs.files && file.path !in fs.dirs && removeOk ==> r.raised.None?
    ensures r.fs.dirs == fs.dirs
  {
    match file
    case NoFile => Step(fs, None)
    case PathStr(p) => if PathString(p) == "" then Step(fs, None) else Step(fs, Some(AttributeError))
    case TempHandle(p) => if Exists(fs, p) then Remove(fs, p, removeOk) else Step(fs, None)
  }

  /** Every path `create_filename` returns makes `_delete_file` raise. */
  lemma DeleteOfCreatedPathRaises(t: Tts, fs: FileSystem, now: Time, removeOk: bool)
    requires Valid(now)
    ensures DeleteFile(fs, PathStr(CreateFilename(t, now)), removeOk) == Step(fs, Some(AttributeError))
  {
    var p := CreateFilename(t, now);
    PathStringEndsWithName(p);
  }

  /**
   `_delete_file` as evidently intended: `os.path.exists(file)` and
   `os.remove(file)` on the path string itself.
   */
  function DeleteFileIntended(fs: FileSystem, file: Option<Path>, removeOk: bool): (r: Step)
    ensures file.None? || !Exists(fs, file.value) ==> r == Step(fs, None)
    ensures r.raised.Some? ==> r.fs == fs && r.raised.value.OSError?
    ensures r.raised.None? && file.Some? ==> !Exists(r.fs, file.value) && r.fs.files == fs.files - {file.value}
    ensures file.Some? && file.value in fs.files && file.value !in fs.dirs && removeOk ==> r.raised.None?
  {
    match file
    case None => Step(fs, None)
    case Some(p) => if Exists(fs, p) then Remove(fs, p, removeOk) else Step(fs, None)
  }

  /**
   The intended deletion removes a stored file, whole or broken off part-way,
   and a second deletion changes nothing more.
   */
  lemma IntendedDeleteRemovesStoredFile(t: Tts, fs: FileSystem, now: Time, audio: Bytes, w: WriteOutcome,
                                        ok1: bool, ok2: bool)
    requires Valid(now) && ok1 && Writable(fs, CreateFilename(t, now)) && !w.Refused?
    ensures var stored := CreateAudio(t, fs, audio, now, w);
      var once := DeleteFileIntended(stored.fs, Some(stored.file), ok1);
      && once.raised.None?
      && once.fs.files == fs.files - {stored.file}
      && DeleteFileIntended(once.fs, Some(stored.file), ok2) == once
  {
  }

  /** `on_text_to_speech` of the base class: it raises. */
  function OnTextToSpeech(t: Tts, text: string): (r: Result<PyObj>)
    ensures r.Raised? && r.exc == NotImplementedError
  {
    Raised(NotImplementedError)
  }
}

=== FILE: leolani_mozilla.dfy ===
/**
 The temporary-file backend of the older revision (a cloud backend, despite
 its file name). Unlike the other backends, storing, playing and deleting all
 happen inside each attempt, so a failure in any of them starts a fresh
 synthesis, and every attempt makes a new temporary file that nothing cleans
 up when the attempt fails.
 */
module LeolaniMozilla {
  import opened Runtime
  import opened Files
  import opened Playback
  import opened Service
  import opened Calls
  import LeolaniAbstract

  /** The named voice this class asks for. */
  const VoiceType: string := "en-US-Wavenet-J"

  /**
   `__init__`: only the language is passed on, so the instance's
   `play_audio` and `save_audio` are the base class's defaults.
   */
  function New(language: string, packageRoot: Path): (r: LeolaniAbstract.Tts)
    ensures r.backend == LeolaniAbstract.TempFileWavenet(Voice(language, "en-US-Wavenet-J", 2), LINEAR16)
    ensures r.language == language && r.playAudio && r.saveAudio
  {
    LeolaniAbstract.New(LeolaniAbstract.TempFileWavenet(Voice(language, VoiceType, Gender), LINEAR16),
                        language, true, true, packageRoot)
  }

  /**
   What the outside world does during one attempt: the cloud call's outcome,
   the name the operating system gives the temporary file (`None` when it
   cannot create one), how writing it goes, the audio device, and whether
   removing the file succeeds.
   */
  datatype Trial = Trial(answer: Outcome, tempName: Option<string>, write: WriteOutcome, device: Device, removeOk: bool)

  /** The trials of one call, the temporary directory, and how files parse as wave files. */
  datatype TrialEnv = TrialEnv(trials: seq<Trial>, tempDir: Path, wav: WavReader)

  /** The trial of attempt `i`; a call past the end of the script fails. */
  function TrialAt(trials: seq<Trial>, i: nat): (r: Trial)
    ensures i >= |trials| ==> r.answer.Fail?
  {
    if i < |trials| then trials[i] else Trial(Fail, None, Complete, Device(true, None), true)
  }

  /** A temporary-file object (`None` when it could not be made) and the filesystem after it. */
  datatype Sound = Sound(file: Option<Path>, fs: FileSystem)

  /**
   `_create_sound`. `NamedTemporaryFile(delete=False)` creates a new empty file
   under a name nobody uses yet; a failing creation is logged and `None` is
   returned. A failing write is logged too, and leaves in the new file the
   bytes that reached it.
   */
  function CreateSound(fs: FileSystem, tempDir: Path, tempName: Option<string>, audio: Bytes, w: WriteOutcome)
    : (r: Sound)
    ensures r.file.None? ==> r.fs == fs
    ensures r.file.Some? ==>
      && tempName.Some? && r.file.value == tempDir + [tempName.value]
      && !Exists(fs, r.file.value)
      && r.fs.dirs == fs.dirs
      && r.fs.files == fs.files[r.file.value := Kept(audio, w)]
    ensures tempName.Some? && !Exists(fs, tempDir + [tempName.value]) && ParentExists(fs, tempDir + [tempName.value])
            ==> r.file.Some?
  {
    match tempName
    case None => Sound(None, fs)
    case Some(name) =>
      var p := tempDir + [name];
      var created := CreateNew(fs, p);
      if created.raised.Some? then Sound(None, fs)
      else Sound(Some(p), WriteFile(created.fs, p, audio, w).fs)
  }

  /**
   The static `_play_file`: the same loop as the base class, but without a
   `try`, so opening or playing failures raise into the attempt.
   */
  function PlayFile(fs: FileSystem, p: Path, wav: WavReader, device: Device): (r: Playback)
    ensures p !in fs.files || wav(fs.files[p]).None? ==> r.raised && r.trace == []
    ensures p in fs.files && wav(fs.files[p]).Some? ==>
      var frames := wav(fs.files[p]).value;
      && r.trace <= Chunks(frames)
      && (r.raised <==> !device.opens || (device.failsAt.Some? && device.failsAt.value < |Chunks(frames)|))
      && (!r.raised ==> r.trace == Chunks(frames))
  {
    OpenAndStream(fs, p, wav, device)
  }

  /** The static `_delete_file`, given the temporary-file object: its file is removed when it exists. */
  function DeleteFile(fs: FileSystem, file: Option<Path>, removeOk: bool): (r: Step)
    ensures file.None? || !Exists(fs, file.value) ==> r == Step(fs, None)
    ensures r.raised.Some? ==> r.fs == fs
    ensures r.raised.None? && file.Some? ==> !Exists(r.fs, file.value) && r.fs.files == fs.files - {file.value}
    ensures file.Some? && file.value in fs.files && file.value !in fs.dirs && removeOk ==> r.raised.None?
  {
    LeolaniAbstract.DeleteFile(fs, if file.Some? then LeolaniAbstract.TempHandle(file.value) else LeolaniAbstract.NoFile,
                               removeOk)
  }

  /** How one attempt ended; the ones with a path name the temporary file the attempt made. */
  datatype AttemptEnd =
    | RequestFailed
    | NoSoundFile
    | PlayFailed(temp: Path)
    | DeleteFailed(temp: Path)
    | Done(file: Option<Path>)

  /** The temporary file an attempt made and left named in its ending. */
  function TempOf(e: AttemptEnd): Option<Path>
  {
    match e
    case PlayFailed(p) => Some(p)
    case DeleteFailed(p) => Some(p)
    case Done(f) => f
    case _ => None
  }

  /** The attempt failed after making its temporary file, which then stays on disk. */
  predicate Leaks(e: AttemptEnd)
  {
    e.PlayFailed? || e.DeleteFailed?
  }

  /** The temporary file an attempt leaves on disk: a leaked one, or the finished attempt's file when it is kept. */
  function LeftBy(e: AttemptEnd, saveFile: bool): set<Path>
  {
    if TempOf(e).Some? && (Leaks(e) || saveFile) then {TempOf(e).value} else {}
  }

  /** The temporary files a sequence of attempts leaves on disk. */
  function LeftByAll(ends: seq<AttemptEnd>, saveFile: bool): set<Path>
    decreases |ends|
  {
    if |ends| == 0 then {} else LeftBy(ends[0], saveFile) + LeftByAll(ends[1..], saveFile)
  }

  datatype AttemptResult = AttemptResult(end: AttemptEnd, fs: FileSystem, played: seq<Chunk>)

  /**
   The body of one attempt: synthesize, make the temporary file, play it
   (`file.name` raises when there is no file), delete it unless it is to be
   kept. Files only ever appear: the one removal is of the file the attempt
   itself made, so what stays is what `LeftBy` names. What is played is a
   prefix of the chunks of the file as written, all of them when playing
   does not raise.
   */
  function RunAttempt(fs: FileSystem, trial: Trial, env: TrialEnv, playFile: bool, saveFile: bool): (r: AttemptResult)
    ensures trial.answer.Fail? <==> r.end.RequestFailed?
    ensures r.end.NoSoundFile? ==> playFile && trial.answer.Audio?
    ensures trial.answer.Audio? && trial.tempName.None? ==> (r.end.NoSoundFile? <==> playFile)
    ensures !playFile ==> r.played == [] && !r.end.PlayFailed?
    ensures fs.files.Keys <= r.fs.files.Keys && r.fs.dirs == fs.dirs
    ensures TempOf(r.end).Some? ==> TempOf(r.end).value !in fs.files
    ensures Leaks(r.end) ==> TempOf(r.end).value in r.fs.files
    ensures r.end.Done? && r.end.file.Some? ==> (r.end.file.value in r.fs.files <==> saveFile)
    ensures r.fs.files.Keys == fs.files.Keys + LeftBy(r.end, saveFile)
    ensures forall q | q in fs.files :: r.fs.files[q] == fs.files[q]
    ensures TempOf(r.end).Some? && TempOf(r.end).value in r.fs.files ==>
      r.fs.files[TempOf(r.end).value] == Kept(trial.answer.content, trial.write)
    ensures r.end.DeleteFailed? ==> !saveFile
    ensures TempOf(r.end).None? ==> r.played == []
    ensures playFile && trial.answer.Audio? && TempOf(r.end).Some? ==>
      var frames := env.wav(Kept(trial.answer.content, trial.write));
      && (frames.None? ==> r.played == [] && r.end.PlayFailed?)
      && (frames.Some? ==> r.played <= Chunks(frames.value))
      && (!r.end.PlayFailed? ==> frames.Some? && r.played == Chunks(frames.value))
  {
    match trial.answer
    case Fail => AttemptResult(RequestFailed, fs, [])
    case Audio(content) =>
      var sound := CreateSound(fs, env.tempDir, trial.tempName, content, trial.write);
      match sound.file
      case None =>
        if playFile then AttemptResult(NoSoundFile, fs, [])
        else AttemptResult(Done(None), fs, [])
      case Some(p) =>
        var play := if playFile then PlayFile(sound.fs, p, env.wav, trial.device) else Playback([], false);
        if play.raised then AttemptResult(PlayFailed(p), sound.fs, play.trace)
        else if saveFile then AttemptResult(Done(Some(p)), sound.fs, play.trace)
        else
          var deleted := DeleteFile(sound.fs, Some(p), trial.removeOk);
          if deleted.raised.Some? then AttemptResult(DeleteFailed(p), sound.fs, play.trace)
          else
            assert sound.fs.files.Keys - {p} == fs.files.Keys;
            AttemptResult(Done(Some(p)), deleted.fs, play.trace)
  }

  /** Every attempt that leaked a temporary file still has it on disk. */
  predicate LeaksKept(ends: seq<AttemptEnd>, fs: FileSystem)
  {
    forall j | 0 <= j < |ends| && Leaks(ends[j]) :: TempOf(ends[j]).value in fs.files
  }

  /** A leaked temporary file is never the file of a later attempt. */
  predicate LeaksDistinct(ends: seq<AttemptEnd>)
  {
    forall j, k | 0 <= j < k < |ends| && Leaks(ends[j]) && TempOf(ends[k]).Some? ::
      TempOf(ends[j]).value != TempOf(ends[k]).value
  }

  /** The bytes an attempt's temporary file holds once written: the audio as far as the write got. */
  function WrittenBy(trial: Trial): (r: Bytes)
    ensures trial.answer.Audio? ==> r <= trial.answer.content
  {
    if trial.answer.Audio? then Kept(trial.answer.content, trial.write) else []
  }

  /** An attempt's body as the loop sees it: the filesystem before it and its number in, its result out. */
  type AttemptBody = (FileSystem, nat) -> AttemptResult

  /** The body `on_text_to_speech` runs, for one call's trials and flags. */
  function Body(env: TrialEnv, playFile: bool, saveFile: bool): AttemptBody
  {
    (fs: FileSystem, i: nat) => RunAttempt(fs, TrialAt(env.trials, i), env, playFile, saveFile)
  }

  /** Which attempts of a call have their cloud call fail. */
  function Failing(env: TrialEnv): nat -> bool
  {
    (i: nat) => TrialAt(env.trials, i).answer.Fail?
  }

  /**
   What the loop's properties need of an attempt: it only adds files, any
   file it names is new, and a file it leaks stays.
   */
  ghost predicate WellBehaved(body: AttemptBody)
  {
    forall fs: FileSystem, i: nat ::
      && fs.files.Keys <= body(fs, i).fs.files.Keys && body(fs, i).fs.dirs == fs.dirs
      && (TempOf(body(fs, i).end).Some? ==> TempOf(body(fs, i).end).value !in fs.files)
      && (Leaks(body(fs, i).end) ==> TempOf(body(fs, i).end).value in body(fs, i).fs.files)
  }

  /** The attempt fails its request exactly at the attempts `failing` names, whatever the filesystem. */
  ghost predicate FailsAt(body: AttemptBody, failing: nat -> bool)
  {
    forall fs: FileSystem, i: nat :: body(fs, i).end.RequestFailed? <==> failing(i)
  }

  /** The attempt changes the set of files by adding exactly what `LeftBy` names. */
  ghost predicate LeavesWhatItSays(body: AttemptBody, saveFile: bool)
  {
    forall fs: FileSystem, i: nat :: body(fs, i).fs.files.Keys == fs.files.Keys + LeftBy(body(fs, i).end, saveFile)
  }

  /** The attempt leaves the contents of the files it found alone. */
  ghost predicate KeepsContents(body: AttemptBody)
  {
    forall fs: FileSystem, i: nat, q: Path | q in fs.files :: q in body(fs, i).fs.files && body(fs, i).fs.files[q] == fs.files[q]
  }

  /** The temporary file attempt `i` leaves on disk holds `written(i)`. */
  ghost predicate WritesAsScripted(body: AttemptBody, written: nat -> Bytes)
  {
    forall fs: FileSystem, i: nat | TempOf(body(fs, i).end).Some? && TempOf(body(fs, i).end).value in body(fs, i).fs.files ::
      body(fs, i).fs.files[TempOf(body(fs, i).end).value] == written(i)
  }

  /** What attempt `i` of a call writes into its temporary file. */
  function Written(env: TrialEnv): nat -> Bytes
  {
    (i: nat) => WrittenBy(TrialAt(env.trials, i))
  }

  /** An attempt that plays nothing. */
  ghost predicate Silent(body: AttemptBody)
  {
    forall fs: FileSystem, i: nat :: body(fs, i).played == []
  }

  /** The body of a call is well behaved, and silent when the call does not play. */
  lemma BodyWellBehaved(env: TrialEnv, playFile: bool, saveFile: bool)
    ensures WellBehaved(Body(env, playFile, saveFile)) && FailsAt(Body(env, playFile, saveFile), Failing(env))
    ensures !playFile ==> Silent(Body(env, playFile, saveFile))
  {
    var body := Body(env, playFile, saveFile);
    forall fs: FileSystem, i: nat
      ensures && fs.files.Keys <= body(fs, i).fs.files.Keys && body(fs, i).fs.dirs == fs.dirs
              && (TempOf(body(fs, i).end).Some? ==> TempOf(body(fs, i).end).value !in fs.files)
              && (Leaks(body(fs, i).end) ==> TempOf(body(fs, i).end).value in body(fs, i).fs.files)
              && (body(fs, i).end.RequestFailed? <==> Failing(env)(i))
              && (!playFile ==> body(fs, i).played == [])
    {
      var a := RunAttempt(fs, TrialAt(env.trials, i), env, playFile, saveFile);
      assert body(fs, i) == a;
    }
  }

  /** The body of a call adds exactly the files its attempts leave. */
  lemma BodyLeavesWhatItSays(env: TrialEnv, playFile: bool, saveFile: bool)
    ensures LeavesWhatItSays(Body(env, playFile, saveFile), saveFile)
  {
    var body := Body(env, playFile, saveFile);
    forall fs: FileSystem, i: nat
      ensures body(fs, i).fs.files.Keys == fs.files.Keys + LeftBy(body(fs, i).end, saveFile)
    {
      assert body(fs, i) == RunAttempt(fs, TrialAt(env.trials, i), env, playFile, saveFile);
    }
  }

  /** The body of a call keeps the files it found and writes each attempt's audio into that attempt's file. */
  lemma BodyKeepsContents(env: TrialEnv, playFile: bool, saveFile: bool)
    ensures KeepsContents(Body(env, playFile, saveFile))
    ensures WritesAsScripted(Body(env, playFile, saveFile), Written(env))
  {
    var body := Body(env, playFile, saveFile);
    forall fs: FileSystem, i: nat
      ensures forall q | q in fs.files :: q in body(fs, i).fs.files && body(fs, i).fs.files[q] == fs.files[q]
      ensures TempOf(body(fs, i).end).Some? && TempOf(body(fs, i).end).value in body(fs, i).fs.files ==>
        body(fs, i).fs.files[TempOf(body(fs, i).end).value] == Written(env)(i)
    {
      assert body(fs, i) == RunAttempt(fs, TrialAt(env.trials, i), env, playFile, saveFile);
    }
  }

  /** The attempts of a call, the filesystem after them, and the audio they played. */
  datatype LoopResult = LoopResult(fs: FileSystem, played: seq<Chunk>, attempts: seq<AttemptEnd>)

  /**
   The attempt loop from attempt `i` on: every exception is logged and the
   next attempt runs; the first attempt that gets to the end returns. The
   result lists the attempts made from `i` on.
   */
  function AttemptLoop(body: AttemptBody, fs: FileSystem, i: nat): (r: LoopResult)
    requires i <= MaxAttempts
    ensures |r.attempts| <= MaxAttempts - i && (i < MaxAttempts ==> |r.attempts| >= 1)
    ensures forall j | 0 <= j < |r.attempts| - 1 :: !r.attempts[j].Done?
    ensures |r.attempts| == MaxAttempts - i || r.attempts[|r.attempts| - 1].Done?
    decreases MaxAttempts - i
  {
    if i == MaxAttempts then LoopResult(fs, [], [])
    else
      var a := body(fs, i);
      if a.end.Done? then LoopResult(a.fs, a.played, [a.end])
      else
        var rest := AttemptLoop(body, a.fs, i + 1);
        LoopResult(rest.fs, a.played + rest.played, [a.end] + rest.attempts)
  }

  /**
   Putting an attempt in front keeps the leak invariants when its leaked file
   is on disk before the later attempts, which only add files and make files
   that were not there.
   */
  lemma PrependKeepsLeaks(e: AttemptEnd, mid: FileSystem, rest: seq<AttemptEnd>, last: FileSystem)
    requires Leaks(e) ==> TempOf(e).value in mid.files
    requires mid.files.Keys <= last.files.Keys
    requires forall k | 0 <= k < |rest| && TempOf(rest[k]).Some? :: TempOf(rest[k]).value !in mid.files
    requires LeaksKept(rest, last) && LeaksDistinct(rest)
    ensures LeaksKept([e] + rest, last) && LeaksDistinct([e] + rest)
  {
    var ends := [e] + rest;
    forall j | 0 <= j < |ends| && Leaks(ends[j])
      ensures TempOf(ends[j]).value in last.files
    {
      if j > 0 {
        assert ends[j] == rest[j - 1];
      }
    }
    forall j, k | 0 <= j < k < |ends| && Leaks(ends[j]) && TempOf(ends[k]).Some?
      ensures TempOf(ends[j]).value != TempOf(ends[k]).value
    {
      assert ends[k] == rest[k - 1];
      if j > 0 {
        assert ends[j] == rest[j - 1];
      }
    }
  }

  /** With a well-behaved body the loop only adds files, and every attempt's file is new. */
  lemma {:induction false} LoopAddsFreshFiles(body: AttemptBody, fs: FileSystem, i: nat)
    requires i <= MaxAttempts && WellBehaved(body)
    ensures var r := AttemptLoop(body, fs, i);
      && fs.files.Keys <= r.fs.files.Keys && r.fs.dirs == fs.dirs
      && (forall j | 0 <= j < |r.attempts| && TempOf(r.attempts[j]).Some? :: TempOf(r.attempts[j]).value !in fs.files)
    decreases MaxAttempts - i
  {
    if i < MaxAttempts {
      var a := body(fs, i);
      if !a.end.Done? {
        LoopAddsFreshFiles(body, a.fs, i + 1);
        var rest := AttemptLoop(body, a.fs, i + 1);
        var r := AttemptLoop(body, fs, i);
        assert r.attempts == [a.end] + rest.attempts;
        forall j | 1 <= j < |r.attempts| && TempOf(r.attempts[j]).Some?
          ensures TempOf(r.attempts[j]).value !in fs.files
        {
          assert r.attempts[j] == rest.attempts[j - 1];
        }
      }
    }
  }

  /** The attempts listed, numbered from `i`, failed their requests exactly where `failing` says. */
  ghost predicate FailedAsScripted(ends: seq<AttemptEnd>, failing: nat -> bool, i: nat)
  {
    forall j | 0 <= j < |ends| :: (ends[j].RequestFailed? <==> failing(i + j))
  }

  /** Putting attempt `i` in front of the attempts from `i + 1` on keeps them matching the script. */
  lemma PrependKeepsScript(e: AttemptEnd, rest: seq<AttemptEnd>, failing: nat -> bool, i: nat)
    requires e.RequestFailed? <==> failing(i)
    requires FailedAsScripted(rest, failing, i + 1)
    ensures FailedAsScripted([e] + rest, failing, i)
  {
    var ends := [e] + rest;
    forall j | 1 <= j < |ends|
      ensures ends[j].RequestFailed? <==> failing(i + j)
    {
      assert ends[j] == rest[j - 1];
      assert i + j == (i + 1) + (j - 1);
    }
  }

  /** With a well-behaved body, attempt `i + j` fails its request exactly when its cloud call fails. */
  lemma {:induction false} LoopFailsAsScripted(body: AttemptBody, failing: nat -> bool, fs: FileSystem, i: nat)
    requires i <= MaxAttempts && FailsAt(body, failing)
    ensures FailedAsScripted(AttemptLoop(body, fs, i).attempts, failing, i)
    decreases MaxAttempts - i
  {
    if i < MaxAttempts {
      var a := body(fs, i);
      if !a.end.Done? {
        LoopFailsAsScripted(body, failing, a.fs, i + 1);
        var rest := AttemptLoop(body, a.fs, i + 1);
        PrependKeepsScript(a.end, rest.attempts, failing, i);
        assert AttemptLoop(body, fs, i).attempts == [a.end] + rest.attempts;
      }
    }
  }

  /**
   With a well-behaved body, every file an attempt leaked is still on disk at
   the end of the loop and is no later attempt's file.
   */
  lemma {:induction false} LoopKeepsLeakedFiles(body: AttemptBody, fs: FileSystem, i: nat)
    requires i <= MaxAttempts && WellBehaved(body)
    ensures var r := AttemptLoop(body, fs, i);
      LeaksKept(r.attempts, r.fs) && LeaksDistinct(r.attempts)
    decreases MaxAttempts - i
  {
    if i < MaxAttempts {
      var a := body(fs, i);
      if !a.end.Done? {
        LoopKeepsLeakedFiles(body, a.fs, i + 1);
        LoopAddsFreshFiles(body, a.fs, i + 1);
        var rest := AttemptLoop(body, a.fs, i + 1);
        PrependKeepsLeaks(a.end, a.fs, rest.attempts, rest.fs);
        assert AttemptLoop(body, fs, i).attempts == [a.end] + rest.attempts;
      }
    }
  }

  /**
   Over the whole loop, the files on disk at the end are those at the start
   plus the ones the attempts leave: every leaked temporary file, and the
   finished attempt's file when it is kept.
   */
  lemma {:induction false} LoopLeavesWhatAttemptsLeave(body: AttemptBody, saveFile: bool, fs: FileSystem, i: nat)
    requires i <= MaxAttempts && LeavesWhatItSays(body, saveFile)
    ensures AttemptLoop(body, fs, i).fs.files.Keys == fs.files.Keys + LeftByAll(AttemptLoop(body, fs, i).attempts, saveFile)
    decreases MaxAttempts - i
  {
    if i < MaxAttempts {
      var a := body(fs, i);
      LoopStep(body, fs, i);
      if a.end.Done? {
        LeftByAllCons(a.end, [], saveFile);
        assert [a.end] + [] == [a.end];
      } else {
        var rest := AttemptLoop(body, a.fs, i + 1);
        LoopLeavesWhatAttemptsLeave(body, saveFile, a.fs, i + 1);
        LeftByAllCons(a.end, rest.attempts, saveFile);
        UnionStep(fs.files.Keys, a.fs.files.Keys, rest.fs.files.Keys, LeftBy(a.end, saveFile), LeftByAll(rest.attempts, saveFile));
      }
    }
  }

  /** Over the whole loop, the files that were there keep their contents. */
  lemma {:induction false} LoopKeepsOldFiles(body: AttemptBody, fs: FileSystem, i: nat)
    requires i <= MaxAttempts && KeepsContents(body)
    ensures var r := AttemptLoop(body, fs, i);
      forall q | q in fs.files :: q in r.fs.files && r.fs.files[q] == fs.files[q]
    decreases MaxAttempts - i
  {
    if i < MaxAttempts {
      var a := body(fs, i);
      LoopStep(body, fs, i);
      if !a.end.Done? {
        LoopKeepsOldFiles(body, a.fs, i + 1);
      }
    }
  }

  /** Every temporary file of the attempts listed, numbered from `i`, that is on disk holds what its attempt wrote. */
  ghost predicate HoldWritten(ends: seq<AttemptEnd>, fs: FileSystem, written: nat -> Bytes, i: nat)
  {
    forall j | 0 <= j < |ends| && TempOf(ends[j]).Some? && TempOf(ends[j]).value in fs.files ::
      fs.files[TempOf(ends[j]).value] == written(i + j)
  }

  /** Putting attempt `i` in front keeps the written contents when its own file, if on disk, holds its bytes. */
  lemma PrependKeepsWritten(e: AttemptEnd, rest: seq<AttemptEnd>, fs: FileSystem, written: nat -> Bytes, i: nat)
    requires TempOf(e).Some? && TempOf(e).value in fs.files ==> fs.files[TempOf(e).value] == written(i)
    requires HoldWritten(rest, fs, written, i + 1)
    ensures HoldWritten([e] + rest, fs, written, i)
  {
    var ends := [e] + rest;
    forall j | 1 <= j < |ends| && TempOf(ends[j]).Some? && TempOf(ends[j]).value in fs.files
      ensures fs.files[TempOf(ends[j]).value] == written(i + j)
    {
      assert ends[j] == rest[j - 1];
      assert i + j == (i + 1) + (j - 1);
    }
  }

  /**
   Over the whole loop, every temporary file still on disk holds what its
   attempt wrote: a later attempt only ever makes a new file, so it never
   touches an earlier one.
   */
  lemma {:induction false} LoopKeepsWrittenFiles(body: AttemptBody, written: nat -> Bytes, fs: FileSystem, i: nat)
    requires i <= MaxAttempts && WellBehaved(body) && KeepsContents(body) && WritesAsScripted(body, written)
    ensures var r := AttemptLoop(body, fs, i);
      HoldWritten(r.attempts, r.fs, written, i)
    decreases MaxAttempts - i
  {
    if i < MaxAttempts {
      var a := body(fs, i);
      LoopStep(body, fs, i);
      if a.end.Done? {
        PrependKeepsWritten(a.end, [], a.fs, written, i);
        assert [a.end] + [] == [a.end];
      } else {
        var rest := AttemptLoop(body, a.fs, i + 1);
        LoopKeepsWrittenFiles(body, written, a.fs, i + 1);
        LoopKeepsOldFiles(body, a.fs, i + 1);
        if TempOf(a.end).Some? {
          FirstLeakStays(a, rest.fs, written(i));
        }
        PrependKeepsWritten(a.end, rest.attempts, rest.fs, written, i);
      }
    }
  }

  /** A leaked file that the rest of the loop keeps still holds what its attempt wrote. */
  lemma FirstLeakStays(a: AttemptResult, last: FileSystem, bytes: Bytes)
    requires TempOf(a.end).Some? && Leaks(a.end) ==> TempOf(a.end).value in a.fs.files
    requires TempOf(a.end).Some? && TempOf(a.end).value in a.fs.files ==> a.fs.files[TempOf(a.end).value] == bytes
    requires forall q | q in a.fs.files :: q in last.files && last.files[q] == a.fs.files[q]
    requires !a.end.Done? && TempOf(a.end).Some?
    ensures TempOf(a.end).value in last.files && last.files[TempOf(a.end).value] == bytes
  {
  }

  /** One attempt of the loop, then the rest of it. */
  lemma LoopStep(body: AttemptBody, fs: FileSystem, i: nat)
    requires i < MaxAttempts
    ensures var a := body(fs, i);
      AttemptLoop(body, fs, i) ==
        if a.end.Done? then LoopResult(a.fs, a.played, [a.end])
        else var rest := AttemptLoop(body, a.fs, i + 1);
          LoopResult(rest.fs, a.played + rest.played, [a.end] + rest.attempts)
  {
  }

  /** Adding one set and then another adds their union. */
  lemma UnionStep(x0: set<Path>, x1: set<Path>, x2: set<Path>, l1: set<Path>, l2: set<Path>)
    requires x1 == x0 + l1 && x2 == x1 + l2
    ensures x2 == x0 + (l1 + l2)
  {
  }

  /** The files a list of attempts leaves: the first attempt's, then the rest's. */
  lemma LeftByAllCons(e: AttemptEnd, rest: seq<AttemptEnd>, saveFile: bool)
    ensures LeftByAll([e] + rest, saveFile) == LeftBy(e, saveFile) + LeftByAll(rest, saveFile)
  {
    assert ([e] + rest)[0] == e && ([e] + rest)[1..] == rest;
  }

  /** A silent body plays nothing over the whole loop. */
  lemma {:induction false} SilentLoopPlaysNothing(body: AttemptBody, fs: FileSystem, i: nat)
    requires i <= MaxAttempts && Silent(body)
    ensures AttemptLoop(body, fs, i).played == []
    decreases MaxAttempts - i
  {
    if i < MaxAttempts && !body(fs, i).end.Done? {
      SilentLoopPlaysNothing(body, body(fs, i).fs, i + 1);
    }
  }

  /** The loop's properties for the body of one call, gathered for `on_text_to_speech`. */
  lemma CallLoopFacts(env: TrialEnv, playFile: bool, saveFile: bool, fs: FileSystem)
    ensures var r := AttemptLoop(Body(env, playFile, saveFile), fs, 0);
      && (forall j | 0 <= j < |r.attempts| :: (TrialAt(env.trials, j).answer.Fail? <==> r.attempts[j].RequestFailed?))
      && (forall j | 0 <= j < |r.attempts| && TempOf(r.attempts[j]).Some? :: TempOf(r.attempts[j]).value !in fs.files)
      && LeaksKept(r.attempts, r.fs) && LeaksDistinct(r.attempts)
      && fs.files.Keys <= r.fs.files.Keys && r.fs.dirs == fs.dirs
      && r.fs.files.Keys == fs.files.Keys + LeftByAll(r.attempts, saveFile)
      && (!playFile ==> r.played == [])
  {
    var body := Body(env, playFile, saveFile);
    var r := AttemptLoop(body, fs, 0);
    BodyWellBehaved(env, playFile, saveFile);
    BodyLeavesWhatItSays(env, playFile, saveFile);
    LoopLeavesWhatAttemptsLeave(body, saveFile, fs, 0);
    LoopAddsFreshFiles(body, fs, 0);
    LoopFailsAsScripted(body, Failing(env), fs, 0);
    LoopKeepsLeakedFiles(body, fs, 0);
    forall j | 0 <= j < |r.attempts|
      ensures TrialAt(env.trials, j).answer.Fail? <==> r.attempts[j].RequestFailed?
    {
      assert Failing(env)(0 + j) == TrialAt(env.trials, j).answer.Fail?;
    }
    if !playFile {
      SilentLoopPlaysNothing(body, fs, 0);
    }
  }

  /** The bytes attempt `j` of a call wrote, in the call's own terms. */
  lemma WrittenInCall(ends: seq<AttemptEnd>, fs: FileSystem, env: TrialEnv)
    requires HoldWritten(ends, fs, Written(env), 0)
    ensures forall j | 0 <= j < |ends| && TempOf(ends[j]).Some? && TempOf(ends[j]).value in fs.files ::
      fs.files[TempOf(ends[j]).value] == WrittenBy(TrialAt(env.trials, j))
  {
    forall j | 0 <= j < |ends| && TempOf(ends[j]).Some? && TempOf(ends[j]).value in fs.files
      ensures fs.files[TempOf(ends[j]).value] == WrittenBy(TrialAt(env.trials, j))
    {
      assert Written(env)(0 + j) == WrittenBy(TrialAt(env.trials, j));
    }
  }

  /** The contents the loop leaves, for the body of one call, gathered for `on_text_to_speech`. */
  lemma CallLoopContents(env: TrialEnv, playFile: bool, saveFile: bool, fs: FileSystem)
    ensures var r := AttemptLoop(Body(env, playFile, saveFile), fs, 0);
      && (forall q | q in fs.files :: r.fs.files[q] == fs.files[q])
      && (forall j | 0 <= j < |r.attempts| && TempOf(r.attempts[j]).Some? && TempOf(r.attempts[j]).value in r.fs.files ::
            r.fs.files[TempOf(r.attempts[j]).value] == WrittenBy(TrialAt(env.trials, j)))
  {
    var body := Body(env, playFile, saveFile);
    var r := AttemptLoop(body, fs, 0);
    BodyWellBehaved(env, playFile, saveFile);
    BodyKeepsContents(env, playFile, saveFile);
    LoopKeepsOldFiles(body, fs, 0);
    LoopKeepsWrittenFiles(body, Written(env), fs, 0);
    WrittenInCall(r.attempts, r.fs, env);
  }

  /** What one call observably did, with how each of its attempts ended. */
  datatype MozillaRun = MozillaRun(ret: Result<PyObj>, fs: FileSystem, played: seq<Chunk>,
                                   requests: seq<Request>, attempts: seq<AttemptEnd>)

  /**
   `on_text_to_speech`. Whether to play and whether to keep the file are the
   call's own `play_file` and `save_file`; the instance's `play_audio` and
   `save_audio` are not read. Up to three attempts, each sending one request
   and each making its own temporary file; the first attempt that gets through
   returns. It returns `None` always, also after three failures. Afterwards
   the disk holds the files it held before, with their contents, plus every
   leaked temporary file and, when `save_file` is set, the finished attempt's
   file; each of those holds the audio its attempt wrote.
   */
  function OnTextToSpeech(t: LeolaniAbstract.Tts, fs: FileSystem, text: string, playFile: bool, saveFile: bool,
                          env: TrialEnv): (r: MozillaRun)
    requires t.backend.TempFileWavenet?
    ensures r.ret == Returned(PyNone)
    ensures 1 <= |r.attempts| <= MaxAttempts && |r.requests| == |r.attempts|
    ensures forall k | 0 <= k < |r.requests| :: r.requests[k] == SynthesizeSpeech(text, t.backend.voice, LINEAR16)
    ensures forall j | 0 <= j < |r.attempts| - 1 :: !r.attempts[j].Done?
    ensures |r.attempts| == MaxAttempts || r.attempts[|r.attempts| - 1].Done?
    ensures forall j | 0 <= j < |r.attempts| :: (TrialAt(env.trials, j).answer.Fail? <==> r.attempts[j].RequestFailed?)
    ensures forall j | 0 <= j < |r.attempts| && TempOf(r.attempts[j]).Some? :: TempOf(r.attempts[j]).value !in fs.files
    ensures LeaksKept(r.attempts, r.fs) && LeaksDistinct(r.attempts)
    ensures fs.files.Keys <= r.fs.files.Keys && r.fs.dirs == fs.dirs
    ensures r.fs.files.Keys == fs.files.Keys + LeftByAll(r.attempts, saveFile)
    ensures forall q | q in fs.files :: r.fs.files[q] == fs.files[q]
    ensures forall j | 0 <= j < |r.attempts| && TempOf(r.attempts[j]).Some? && TempOf(r.attempts[j]).value in r.fs.files ::
      r.fs.files[TempOf(r.attempts[j]).value] == WrittenBy(TrialAt(env.trials, j))
    ensures !playFile ==> r.played == []
  {
    assert t.backend.audioEncoding == LINEAR16;
    var loop := AttemptLoop(Body(env, playFile, saveFile), fs, 0);
    CallLoopFacts(env, playFile, saveFile, fs);
    CallLoopContents(env, playFile, saveFile, fs);
    MozillaRun(Returned(PyNone), loop.fs, loop.played,
               seq(|loop.attempts|, _ => SynthesizeSpeech(text, t.backend.voice, t.backend.audioEncoding)),
               loop.attempts)
  }

  /** The call's result depends on the per-call flags only, never on the instance's. */
  lemma InstanceFlagsAreIgnored(t: LeolaniAbstract.Tts, fs: FileSystem, text: string, playFile: bool, saveFile: bool,
                                env: TrialEnv, playAudio: bool, saveAudio: bool)
    requires t.backend.TempFileWavenet?
    ensures OnTextToSpeech(t, fs, text, playFile, saveFile, env)
         == OnTextToSpeech(t.(playAudio := playAudio, saveAudio := saveAudio), fs, text, playFile, saveFile, env)
  {
  }

  /**
   A playback failure makes a fresh synthesis: when the first answer's file
   is made but the device cannot be opened, a second request is sent, and the
   first temporary file stays on disk.
   */
  lemma PlaybackFailureResynthesizes(t: LeolaniAbstract.Tts, fs: FileSystem, text: string, saveFile: bool,
                                     env: TrialEnv)
    requires t.backend.TempFileWavenet?
    requires |env.trials| > 0 && env.trials[0].answer.Audio? && env.trials[0].tempName.Some?
    requires !Exists(fs, env.tempDir + [env.trials[0].tempName.value])
    requires ParentExists(fs, env.tempDir + [env.trials[0].tempName.value])
    requires !env.trials[0].device.opens
    ensures var r := OnTextToSpeech(t, fs, text, true, saveFile, env);
      && |r.requests| >= 2
      && r.attempts[0] == PlayFailed(env.tempDir + [env.trials[0].tempName.value])
      && env.tempDir + [env.trials[0].tempName.value] in r.fs.files
  {
    var p := env.tempDir + [env.trials[0].tempName.value];
    var a := RunAttempt(fs, env.trials[0], env, true, saveFile);
    assert TrialAt(env.trials, 0) == env.trials[0];
    var sound := CreateSound(fs, env.tempDir, env.trials[0].tempName, env.trials[0].answer.content, env.trials[0].write);
    assert sound.file == Some(p);
    assert a.end == PlayFailed(p);
    var body := Body(env, true, saveFile);
    assert body(fs, 0) == a;
    var loop := AttemptLoop(body, fs, 0);
    var rest := AttemptLoop(body, a.fs, 1);
    assert loop.attempts == [a.end] + rest.attempts;
  }

  /**
   Make, play, delete: with `save_file` off and a first attempt that goes
   through cleanly, the call sends one request, plays the whole file when
   asked to, and leaves the filesystem exactly as it found it.
   */
  lemma CleanCallLeavesNoTrace(t: LeolaniAbstract.Tts, fs: FileSystem, text: string, playFile: bool, env: TrialEnv)
    requires t.backend.TempFileWavenet?
    requires |env.trials| > 0 && env.trials[0].answer.Audio? && env.trials[0].tempName.Some?
    requires !Exists(fs, env.tempDir + [env.trials[0].tempName.value])
    requires ParentExists(fs, env.tempDir + [env.trials[0].tempName.value])
    requires env.trials[0].removeOk
    requires playFile ==>
      && env.trials[0].device.opens && env.trials[0].device.failsAt.None?
      && env.wav(Kept(env.trials[0].answer.content, env.trials[0].write)).Some?
    ensures var r := OnTextToSpeech(t, fs, text, playFile, false, env);
      && r.fs == fs
      && |r.requests| == 1
      && r.attempts == [Done(Some(env.tempDir + [env.trials[0].tempName.value]))]
      && (playFile ==> r.played == Chunks(env.wav(Kept(env.trials[0].answer.content, env.trials[0].write)).value))
  {
    var trial := env.trials[0];
    var p := env.tempDir + [trial.tempName.value];
    assert TrialAt(env.trials, 0) == trial;
    var sound := CreateSound(fs, env.tempDir, trial.tempName, trial.answer.content, trial.write);
    assert sound.file == Some(p);
    var a := RunAttempt(fs, trial, env, playFile, false);
    assert a.end == Done(Some(p));
    assert a.fs.files == sound.fs.files - {p};
    assert a.fs.files == fs.files;
    var body := Body(env, playFile, false);
    assert body(fs, 0) == a;
  }
}

=== FILE: leolani_wavenet.dfy ===
/**
 The cloud synthesis backend of the older revision: the attempt loop around
 the cloud call, then playback and deletion through the base class.
 */
module LeolaniWavenet {
  import opened Runtime
  import opened Files
  import opened Service
  import opened Calls
  import opened Playback
  import opened LeolaniAbstract

  /** The named voice this revision asks for. */
  const VoiceType: string := "en-US-Wavenet-J"

  /**
   `WavenetAPITextToSpeech.__init__`: only the language is passed on, so the
   base class's defaults apply and the instance plays and saves. The voice
   selection is built once, from the language.
   */
  function New(language: string, packageRoot: Path): (r: Tts)
    ensures r.backend == WavenetApi(Voice(language, "en-US-Wavenet-J", 2), LINEAR16)
    ensures r.language == language && r.playAudio && r.saveAudio && !Talking(r)
  {
    LeolaniAbstract.New(WavenetApi(Voice(language, VoiceType, Gender), LINEAR16), language, true, true, packageRoot)
  }

  /**
   The attempt loop from attempt `i` on: `_create_audio` never raises, so an
   attempt fails only when the cloud call does, and the loop ends at the first
   answer. The answer is stored by `StoreLoop`.
   */
  function FirstAnswer(answers: seq<Outcome>, i: nat): (r: Option<nat>)
    requires i <= MaxAttempts
    ensures r.None? <==> forall j | i <= j < MaxAttempts :: Answer(answers, j).Fail?
    ensures r.Some? ==>
      && i <= r.value < MaxAttempts
      && Answer(answers, r.value).Audio?
      && (forall j | i <= j < r.value :: Answer(answers, j).Fail?)
    decreases MaxAttempts - i
  {
    if i == MaxAttempts then None
    else if Answer(answers, i).Audio? then Some(i)
    else FirstAnswer(answers, i + 1)
  }

  /** The whole attempt loop: the first answer, stored, or no attempt answered. */
  function StoreLoop(t: Tts, fs: FileSystem, env: CallEnv): (r: LoopExit)
    ensures r.Exhausted? <==> forall j | 0 <= j < MaxAttempts :: Answer(env.answers, j).Fail?
    ensures r.Stored? ==>
      && r.attempt < MaxAttempts
      && Answer(env.answers, r.attempt).Audio?
      && (forall j | 0 <= j < r.attempt :: Answer(env.answers, j).Fail?)
      && r.saved == CreateAudio(t, fs, Answer(env.answers, r.attempt).content, env.now, env.write)
  {
    match FirstAnswer(env.answers, 0)
    case None => Exhausted
    case Some(k) => Stored(k, CreateAudio(t, fs, Answer(env.answers, k).content, env.now, env.write))
  }

  /** The path string the loop leaves in `file`, or `None`. */
  function FileRefOf(exit: LoopExit): FileRef
  {
    if exit.Stored? then PathStr(exit.saved.file) else NoFile
  }

  /**
   `_delete_file(file)` on what the loop left in `file`: as shipped, the path
   string, whose missing `name` raises; corrected, the path it names.
   */
  function DeleteLeft(fs: FileSystem, exit: LoopExit, variant: Variant, removeOk: bool): (r: Step)
    ensures exit.Exhausted? ==> r == Step(fs, None)
    ensures variant.AsShipped? && exit.Stored? && PathString(exit.saved.file) != "" ==>
      r == Step(fs, Some(AttributeError))
    ensures variant.Fixed? && exit.Stored? && r.raised.None? ==>
      !Exists(r.fs, exit.saved.file) && r.fs.files == fs.files - {exit.saved.file}
    ensures variant.Fixed? && exit.Stored? && exit.saved.file in fs.files && exit.saved.file !in fs.dirs && removeOk ==>
      r.raised.None?
    ensures r.raised.Some? ==> r.fs == fs
  {
    match variant
    case AsShipped => DeleteFile(fs, FileRefOf(exit), removeOk)
    case Fixed => DeleteFileIntended(fs, FileOf(exit), removeOk)
  }

  /**
   `on_text_to_speech`. Up to three cloud calls, stopping at the first that
   answers; playback after the loop whenever `play_audio` is set, even with no
   file; deletion when `save_audio` is off, which as shipped raises
   `AttributeError` on the stored path string, leaving the stored file on
   disk. It returns `None` on every other path. The clock `create_filename`
   reads is `env.now`, and the named file is the only path the call touches.
   */
  function OnTextToSpeech(t: Tts, fs: FileSystem, text: string, variant: Variant, env: CallEnv): (r: Run)
    requires t.backend.WavenetApi?
    ensures 1 <= |r.requests| <= MaxAttempts
    ensures forall k | 0 <= k < |r.requests| :: r.requests[k] == SynthesizeSpeech(text, t.backend.voice, LINEAR16)
    ensures forall j | 0 <= j < |r.requests| - 1 :: Answer(env.answers, j).Fail?
    ensures |r.requests| < MaxAttempts ==> Answer(env.answers, |r.requests| - 1).Audio?
    ensures variant.AsShipped? ==> r.ret == Returned(PyNone) || r.ret == Raised(AttributeError)
    ensures variant.Fixed? ==> r.ret == Returned(PyNone) || (r.ret.Raised? && r.ret.exc.OSError?)
    ensures r.ret == Raised(AttributeError) <==>
      variant.AsShipped? && !t.saveAudio && exists j | 0 <= j < MaxAttempts :: Answer(env.answers, j).Audio?
    ensures !t.playAudio ==> r.played == []
    ensures r.fs.dirs == fs.dirs
    ensures r.fs.files - {CreateFilename(t, env.now)} == fs.files - {CreateFilename(t, env.now)}
    ensures r.ret == Raised(AttributeError) && Writable(fs, CreateFilename(t, env.now)) && !env.write.Refused? ==>
      CreateFilename(t, env.now) in r.fs.files
  {
    var exit := StoreLoop(t, fs, env);
    assert t.backend.audioEncoding == LINEAR16;
    var stored := if exit.Stored? then exit.saved.fs else fs;
    assert exit.Stored? <==> exists j | 0 <= j < MaxAttempts :: Answer(env.answers, j).Audio?;
    var requests := seq(if exit.Stored? then exit.attempt + 1 else MaxAttempts,
                        _ => SynthesizeSpeech(text, t.backend.voice, t.backend.audioEncoding));
    AfterLoop(t, stored, exit, variant, env, requests)
  }

  /**
   What follows the loop: playback of `file` when `play_audio` is set, then,
   when `save_audio` is off, its deletion, which as shipped raises on any
   stored path. Only the stored file can be touched.
   */
  function AfterLoop(t: Tts, fs: FileSystem, exit: LoopExit, variant: Variant, env: CallEnv, requests: seq<Request>)
    : (r: Run)
    requires exit.Stored? ==> exit.saved.file == CreateFilename(t, env.now)
    ensures r.requests == requests
    ensures !t.playAudio ==> r.played == []
    ensures r.fs.dirs == fs.dirs
    ensures r.fs.files - {CreateFilename(t, env.now)} == fs.files - {CreateFilename(t, env.now)}
    ensures r.ret.Raised? ==> r.fs == fs
    ensures variant.AsShipped? ==> r.ret == Returned(PyNone) || r.ret == Raised(AttributeError)
    ensures variant.Fixed? ==> r.ret == Returned(PyNone) || (r.ret.Raised? && r.ret.exc.OSError?)
    ensures r.ret == Raised(AttributeError) <==> variant.AsShipped? && !t.saveAudio && exit.Stored?
  {
    var played := if t.playAudio then PlayFile(fs, FileOf(exit), env.wav, env.device) else [];
    if !t.saveAudio then
      var deleted := DeleteLeft(fs, exit, variant, env.removeOk);
      assert variant.AsShipped? && exit.Stored? ==> deleted.raised == Some(AttributeError) by {
        if variant.AsShipped? && exit.Stored? {
          DeleteOfCreatedPathRaises(t, fs, env.now, env.removeOk);
        }
      }
      Run(if deleted.raised.Some? then Raised(deleted.raised.value) else Returned(PyNone), deleted.fs, played, requests)
    else
      Run(Returned(PyNone), fs, played, requests)
  }

  /**
   A new instance saves its audio, so its calls never reach the deletion and
   never raise; when the first answering attempt's file is written, it holds
   that answer's audio, and since a new instance plays, a working device plays
   exactly that audio's frames.
   */
  lemma NewInstanceKeepsAudio(language: string, packageRoot: Path, fs: FileSystem, text: string, variant: Variant,
                              env: CallEnv, k: nat)
    requires env.write.Complete?
    requires k < MaxAttempts && Answer(env.answers, k).Audio?
    requires forall j | 0 <= j < k :: Answer(env.answers, j).Fail?
    requires Writable(fs, CreateFilename(New(language, packageRoot), env.now))
    ensures var t := New(language, packageRoot);
      var r := OnTextToSpeech(t, fs, text, variant, env);
      var file := CreateFilename(t, env.now);
      && r.ret == Returned(PyNone)
      && file in r.fs.files && r.fs.files[file] == Answer(env.answers, k).content
      && |r.requests| == k + 1
      && (env.wav(Answer(env.answers, k).content).Some? && env.device.opens && env.device.failsAt.None? ==>
            Flatten(r.played) == env.wav(Answer(env.answers, k).content).value)
  {
    var t := New(language, packageRoot);
    var exit := StoreLoop(t, fs, env);
    assert exit.Stored?;
    assert exit.attempt == k;
  }

  /**
   With the deletion corrected, an instance that does not save removes the
   file it stored, whole or broken off part-way: the call returns `None` and
   the filesystem is as before, minus that file's path.
   */
  lemma FixedDeleteRemovesStoredFile(t: Tts, fs: FileSystem, text: string, env: CallEnv, k: nat)
    requires t.backend.WavenetApi? && !t.saveAudio && !env.write.Refused? && env.removeOk
    requires k < MaxAttempts && Answer(env.answers, k).Audio?
    requires forall j | 0 <= j < k :: Answer(env.answers, j).Fail?
    requires Writable(fs, CreateFilename(t, env.now))
    ensures var r := OnTextToSpeech(t, fs, text, Fixed, env);
      && r.ret == Returned(PyNone)
      && r.fs.files == fs.files - {CreateFilename(t, env.now)}
      && |r.requests| == k + 1
  {
    var exit := StoreLoop(t, fs, env);
    assert exit.Stored? && exit.attempt == k;
    var file := exit.saved.file;
    assert file in exit.saved.fs.files && file !in exit.saved.fs.dirs;
  }

  /**
   Whenever `play_audio` is set, the file the first answer was written to is
   played after the loop, whether or not it is kept: what reaches the device is
   a prefix of the chunks of the audio as written, all of it on a working
   device, and nothing when that audio does not parse.
   */
  lemma StoredAudioIsPlayed(t: Tts, fs: FileSystem, text: string, variant: Variant, env: CallEnv, k: nat)
    requires t.backend.WavenetApi? && t.playAudio && !env.write.Refused?
    requires k < MaxAttempts && Answer(env.answers, k).Audio?
    requires forall j | 0 <= j < k :: Answer(env.answers, j).Fail?
    requires Writable(fs, CreateFilename(t, env.now))
    ensures var r := OnTextToSpeech(t, fs, text, variant, env);
      var frames := env.wav(Kept(Answer(env.answers, k).content, env.write));
      && (frames.None? ==> r.played == [])
      && (frames.Some? ==> r.played <= Chunks(frames.value))
      && (frames.Some? && env.device.opens && env.device.failsAt.None? ==> Flatten(r.played) == frames.value)
  {
    var exit := StoreLoop(t, fs, env);
    assert exit.Stored? && exit.attempt == k;
  }

  /**
   As shipped, an instance that does not save raises `AttributeError` at the
   deletion and the file it stored stays on disk, holding the first answer's
   audio as written; nothing else changes.
   */
  lemma ShippedDeleteKeepsStoredFile(t: Tts, fs: FileSystem, text: string, env: CallEnv, k: nat)
    requires t.backend.WavenetApi? && !t.saveAudio && !env.write.Refused?
    requires k < MaxAttempts && Answer(env.answers, k).Audio?
    requires forall j | 0 <= j < k :: Answer(env.answers, j).Fail?
    requires Writable(fs, CreateFilename(t, env.now))
    ensures var r := OnTextToSpeech(t, fs, text, AsShipped, env);
      var file := CreateFilename(t, env.now);
      && r.ret == Raised(AttributeError)
      && file in r.fs.files && r.fs.files[file] == Kept(Answer(env.answers, k).content, env.write)
      && r.fs.files - {file} == fs.files - {file}
      && r.fs.dirs == fs.dirs
      && |r.requests| == k + 1
  {
    var exit := StoreLoop(t, fs, env);
    assert exit.Stored? && exit.attempt == k;
    DeleteOfCreatedPathRaises(t, exit.saved.fs, env.now, env.removeOk);
  }

  /**
   When every cloud call fails, nothing is written, nothing is played, and
   the call returns `None` whatever the configuration.
   */
  lemma AllAttemptsFail(t: Tts, fs: FileSystem, text: string, variant: Variant, env: CallEnv)
    requires t.backend.WavenetApi?
    requires forall j | 0 <= j < MaxAttempts :: Answer(env.answers, j).Fail?
    ensures var r := OnTextToSpeech(t, fs, text, variant, env);
      r.ret == Returned(PyNone) && r.fs == fs && r.played == [] && |r.requests| == MaxAttempts
  {
  }
}

=== FILE: playback.dfy ===
/**
 Chunked playback of a wave file on the host audio device. A file is reduced
 to its frame sequence (the header parsing of the `wave` module is a parameter,
 `WavReader`), and the device to the chunks written to it, in order.
 */
module Playback {
  import opened Runtime
  import opened Files

  /** One audio frame: one sample for every channel. */
  type Frame = Bytes

  /** What one `readframes` call returns and one `write` call plays. */
  type Chunk = seq<Frame>

  /** Parses a wave file's contents into its frames; `None` when `wave.open` rejects it. */
  type WavReader = Bytes -> Option<seq<Frame>>

  /** `_AUDIO_FILE_BUFFER_SIZE`: the frames requested per `readframes` call. */
  const ChunkSize: nat := 1024

  /**
   The output device: whether `PyAudio.open` succeeds, and the index of the
   first `write` that raises, if any.
   */
  datatype Device = Device(opens: bool, failsAt: Option<nat>)

  /** The chunks the device played, and whether playback ended in an exception. */
  datatype Playback = Playback(trace: seq<Chunk>, raised: bool)

  function Flatten(cs: seq<Chunk>): seq<Frame>
  {
    if |cs| == 0 then [] else cs[0] + Flatten(cs[1..])
  }

  function Min(a: nat, b: nat): nat
  {
    if a <= b then a else b
  }

  /** `readframes(n)` after `pos` frames have been read: at most `n` frames, empty at the end. */
  function ReadFrames(frames: seq<Frame>, pos: nat, n: nat): (r: Chunk)
    requires pos <= |frames|
    ensures |r| <= n
    ensures r == [] <==> pos == |frames| || n == 0
  {
    frames[pos..Min(pos + n, |frames|)]
  }

  /**
   The chunks read from a file of the given frames: `readframes(ChunkSize)`
   repeated until it returns nothing.
   */
  function Chunks(frames: seq<Frame>): (cs: seq<Chunk>)
    ensures cs == [] <==> frames == []
    ensures |cs| <= |frames|
    decreases |frames|
  {
    if |frames| == 0 then []
    else
      var head := ReadFrames(frames, 0, ChunkSize);
      [head] + Chunks(frames[|head|..])
  }

  /** The chunks, played one after the other, are the whole file. */
  lemma {:induction false} ChunksCoverFile(frames: seq<Frame>)
    ensures Flatten(Chunks(frames)) == frames
    decreases |frames|
  {
    if |frames| > 0 {
      var head := ReadFrames(frames, 0, ChunkSize);
      ChunksCoverFile(frames[|head|..]);
      assert Chunks(frames)[1..] == Chunks(frames[|head|..]);
      assert frames == head + frames[|head|..];
    }
  }

  /** A file of `n` frames makes `n / ChunkSize` chunks, rounded up. */
  lemma {:induction false} ChunkCount(frames: seq<Frame>)
    ensures |Chunks(frames)| == (|frames| + ChunkSize - 1) / ChunkSize
    decreases |frames|
  {
    if |frames| > 0 {
      var head := ReadFrames(frames, 0, ChunkSize);
      ChunkCount(frames[|head|..]);
    }
  }

  /** Every chunk is non-empty and at most `ChunkSize` frames; all but the last are full. */
  lemma {:induction false} ChunksBounded(frames: seq<Frame>)
    ensures forall k | 0 <= k < |Chunks(frames)| :: 0 < |Chunks(frames)[k]| <= ChunkSize
    ensures forall k | 0 <= k < |Chunks(frames)| - 1 :: |Chunks(frames)[k]| == ChunkSize
    decreases |frames|
  {
    if |frames| > 0 {
      var head := ReadFrames(frames, 0, ChunkSize);
      ChunksBounded(frames[|head|..]);
      if |head| < ChunkSize {
        assert frames[|head|..] == [];
      }
    }
  }

  /** Chunking the rest of a file after a read is the read followed by chunking what remains. */
  lemma ChunksAfterRead(frames: seq<Frame>, pos: nat)
    requires pos < |frames|
    ensures Chunks(frames[pos..]) ==
            [ReadFrames(frames, pos, ChunkSize)] + Chunks(frames[pos + |ReadFrames(frames, pos, ChunkSize)|..])
  {
    var rest := frames[pos..];
    assert ReadFrames(rest, 0, ChunkSize) == ReadFrames(frames, pos, ChunkSize);
    assert rest[|ReadFrames(rest, 0, ChunkSize)|..] == frames[pos + |ReadFrames(frames, pos, ChunkSize)|..];
  }

  /**
   The outcome of streaming a file to the device: every chunk in order when
   the device keeps working, the chunks before the failing write otherwise.
   */
  function Stream(frames: seq<Frame>, device: Device): (r: Playback)
    ensures r.raised <==> !device.opens || (device.failsAt.Some? && device.failsAt.value < |Chunks(frames)|)
    ensures r.trace <= Chunks(frames)
    ensures !r.raised ==> r.trace == Chunks(frames)
    ensures device.opens && r.raised ==> |r.trace| == device.failsAt.value
  {
    var cs := Chunks(frames);
    if !device.opens then Playback([], true)
    else if device.failsAt.Some? && device.failsAt.value < |cs| then Playback(cs[..device.failsAt.value], true)
    else Playback(cs, false)
  }

  /** A device that opens and never fails plays exactly the file's frames. */
  lemma StreamPlaysWholeFile(frames: seq<Frame>, device: Device)
    requires device.opens && device.failsAt.None?
    ensures !Stream(frames, device).raised
    ensures Flatten(Stream(frames, device).trace) == frames
  {
    ChunksCoverFile(frames);
  }

  /** Whatever happens on the device, what was played is a prefix of the file's chunks. */
  lemma StreamIsPrefixOfChunks(frames: seq<Frame>, device: Device)
    ensures Stream(frames, device).trace <= Chunks(frames)
    ensures !Stream(frames, device).raised <==> Stream(frames, device).trace == Chunks(frames) && device.opens
  {
  }

  /**
   One turn of the playback loop: when the chunks played so far and the
   chunks of the unread rest make up the file's chunks, and a read still
   returns frames, the read is the next chunk of the file.
   */
  lemma ReadStep(frames: seq<Frame>, pos: nat, trace: seq<Chunk>)
    requires pos < |frames| && Chunks(frames) == trace + Chunks(frames[pos..])
    ensures Chunks(frames) == (trace + [ReadFrames(frames, pos, ChunkSize)])
                              + Chunks(frames[pos + |ReadFrames(frames, pos, ChunkSize)|..])
    ensures |trace| < |Chunks(frames)| && Chunks(frames)[..|trace|] == trace
  {
    ChunksAfterRead(frames, pos);
    var data := ReadFrames(frames, pos, ChunkSize);
    Regroup(Chunks(frames), trace, data, Chunks(frames[pos + |data|..]));
  }

  /** When a read returns nothing, the chunks played so far are all the file's chunks. */
  lemma ReadEnd(frames: seq<Frame>, pos: nat, trace: seq<Chunk>)
    requires pos <= |frames| && ReadFrames(frames, pos, ChunkSize) == []
    requires Chunks(frames) == trace + Chunks(frames[pos..])
    ensures trace == Chunks(frames)
  {
    assert frames[pos..] == [];
  }

  /** A sequence made of a prefix, one element and a rest starts with the prefix, which is shorter. */
  lemma Regroup<T>(all: seq<T>, prefix: seq<T>, x: T, rest: seq<T>)
    requires all == prefix + ([x] + rest)
    ensures all == (prefix + [x]) + rest
    ensures |prefix| < |all| && all[..|prefix|] == prefix
  {
  }

  /**
   The playback loop: read a chunk, and while it is not empty, write it and
   read the next. It plays what `Stream` describes.
   */
  method PlayFrames(frames: seq<Frame>, device: Device) returns (trace: seq<Chunk>, raised: bool)
    ensures Playback(trace, raised) == Stream(frames, device)
  {
    trace := [];
    raised := false;
    if !device.opens {
      raised := true;
      return;
    }
    var pos := 0;
    var data := ReadFrames(frames, pos, ChunkSize);
    while data != []
      invariant 0 <= pos <= |frames|
      invariant data == ReadFrames(frames, pos, ChunkSize)
      invariant Chunks(frames) == trace + Chunks(frames[pos..])
      invariant device.failsAt.Some? ==> |trace| <= device.failsAt.value
      decreases |frames| - pos
    {
      ReadStep(frames, pos, trace);
      if device.failsAt == Some(|trace|) {
        raised := true;
        return;
      }
      trace := trace + [data];
      pos := pos + |data|;
      data := ReadFrames(frames, pos, ChunkSize);
    }
    ReadEnd(frames, pos, trace);
  }

  /**
   `wave.open(path)` and the playback loop: a path that is not a regular file,
   or whose contents are not a wave file, raises before anything is played.
   */
  function OpenAndStream(fs: FileSystem, p: Path, wav: WavReader, device: Device): (r: Playback)
    ensures p !in fs.files || wav(fs.files[p]).None? ==> r == Playback([], true)
    ensures p in fs.files && wav(fs.files[p]).Some? ==> r == Stream(wav(fs.files[p]).value, device)
  {
    if p !in fs.files then Playback([], true)
    else match wav(fs.files[p])
      case None => Playback([], true)
      case Some(frames) => Stream(frames, device)
  }
}

=== FILE: runtime.dfy ===
/**
 The Python values and exceptions that the speech-synthesis code hands back to
 its callers, plus the byte strings it moves between the synthesis service,
 the filesystem and the audio device.
 */
module Runtime {

  newtype byte = x: int | 0 <= x < 256

  /** A Python `bytes` object. */
  type Bytes = seq<byte>

  datatype Option<+T> = None | Some(value: T)

  /** The error numbers the filesystem operations of the model can raise with. */
  datatype Errno = EEXIST | ENOENT | ENOTDIR | EISDIR | EACCES | EIO

  /** The exceptions that can escape a call of the modelled code. */
  datatype Exc =
    | NotImplementedError
    | AttributeError
    | OSError(errno: Errno)

  /** Either the value a Python call returned or the exception it raised. */
  datatype Result<+T> = Returned(value: T) | Raised(exc: Exc)

  /** The Python values a `text_to_speech` call can return: `None` or a `str`. */
  datatype PyObj = PyNone | PyStr(s: string)
}

=== FILE: service.dfy ===
/**
 The synthesis services the backends call. A service is not modelled: each
 call is one entry of a script of outcomes, and the model records the
 requests that were sent.
 */
module Service {
  import opened Runtime

  /** The outcome of one synthesis call: it raised, or it answered with audio content. */
  datatype Outcome = Fail | Audio(content: Bytes)

  /** The answer to the call of attempt `i`; a call past the end of the script fails. */
  function Answer(script: seq<Outcome>, i: nat): (r: Outcome)
    ensures i >= |script| ==> r == Fail
    ensures i < |script| ==> r == script[i]
  {
    if i < |script| then script[i] else Fail
  }

  /** `texttospeech.AudioEncoding`: the backends only ever ask for LINEAR16. */
  datatype Encoding = LINEAR16

  /** `texttospeech.VoiceSelectionParams`. */
  datatype Voice = Voice(languageCode: string, name: string, ssmlGender: int)

  /** `ssml_gender=2`: the female voice. */
  const Gender: int := 2

  datatype Request =
    | SynthesizeSpeech(text: string, voice: Voice, encoding: Encoding)
    | HttpGet(url: string, params: seq<(string, string)>)
}
